=== FILE: README.md ===
# ADR span evaluation, modelled in Dafny

This project models the scoring core of an adverse-drug-reaction (ADR)
extraction pipeline. It compares predicted entity spans against gold
annotations in brat `.ann` files, where each line has the form
`id <TAB> LABEL start end <TAB> text`.

- `Step3Eval` models `utils/step3_evaluate_predictions.py`. It reads the gold
  (label, text) pairs from the annotation lines and maps decoded prediction
  items to pairs. It normalises case and whitespace on both sides, and scores
  the two sets by intersection and difference, with guarded precision, recall
  and F1.
- `AdrEval` models `utils/evaluation_adr.py`. It has two line readers that
  produce (label, start, end, text) entities. `read_ann_file_all_as_adr`
  relabels every entity `ADR`. `read_ann_file_adr_only` keeps only lines
  labelled `ADR`. It also models `compare_entities` and `compute_metrics`.
- `Scoring` holds the ratio arithmetic shared by both files. Metrics are
  exact `real`s.
- `Text` and `Ints` model the Python built-ins the code relies on, on ASCII
  text:
  - `str.strip`, `str.lower` and `s.split(c)`, which keeps empty pieces;
  - `s.split()`, which splits on whitespace runs;
  - `sep.join`, `int(s)` (sign, underscores, surrounding whitespace) and
    `str(i)`.
- `Json` is the decoded JSON value. `AnnFormat` writes a well-formed
  annotation line from its parts, so the readers' round trips can be stated.
  `Results` holds `Option` and `Result`.

A file is a `seq<string>` of lines, each possibly ending in its line
terminator. Each reader is one per-line function plus an accumulation that
mirrors the Python loop.

The Python exceptions become `Err` results:
- the `IndexError` of `parts[1].split()[0]` on an all-whitespace label field;
- the `KeyError` of a prediction object without `"label"` or `"text"`;
- the `TypeError` of iterating a scalar JSON value;
- the `AttributeError` of `.strip()` on a non-string label or text.

The two ADR readers swallow `IndexError` and `ValueError` in their `try`
block. There the line is simply dropped (`None`).

Points where the two files behave differently, or where the outcome is
easy to mistake:
- `step3_evaluate_predictions.py` tests for `#` on the raw line, before
  stripping. An indented `#` line is therefore read as data there, while
  both ADR readers skip it (`AdrEval.IndentedCommentReadersDisagree`).
- An all-whitespace label field makes the ground-truth reader raise
  `IndexError`. The line is not skipped.
- With tp = 0, precision and recall are both 0 whatever fp and fn are. With
  tp > 0, fp ≠ fn makes them differ
  (`Scoring.UnequalErrorsSplitPrecisionRecall`).
- In `read_ann_file_adr_only` the label test runs before the offsets are
  read. The lines kept are still exactly those the relabelling reader keeps
  whose label is `ADR` (`AdrEval.AdrOnlyLineIsFiltered`).

## Model

| member | source | states |
|---|---|---|
| Step3Eval.GroundTruthSkipRules | utils/step3_evaluate_predictions.py:13-17 | A line with `#` in its first column, a blank line, or a line with fewer than two tabs once stripped contributes nothing |
| Step3Eval.GroundTruthLabelFailure | utils/step3_evaluate_predictions.py:18-19 | The label lookup raises exactly when the line passes the skip rules and its second field is all whitespace (both directions) |
| Step3Eval.GroundTruthReadsAnnLine | utils/step3_evaluate_predictions.py:12-21 | A well-formed annotation line contributes (its label, its text stripped). This holds for any indentation and line terminator, as long as the line is not a first-column comment |
| Step3Eval.ParseGroundTruthFields | utils/step3_evaluate_predictions.py:15-21 | A non-comment line that strips to three or more tab fields contributes the first word of the second field and the stripped third. Any further fields are ignored |
| Step3Eval.CollectSpansOk | utils/step3_evaluate_predictions.py:10-21 | Accumulating line outcomes succeeds exactly when no line fails the label lookup. The result is then exactly the set of accepted spans |
| Step3Eval.CollectSpansFirstFailure | utils/step3_evaluate_predictions.py:12-19 | A failed accumulation names the first failing line; every earlier line was fine |
| Step3Eval.ReadGroundTruthSpansSpec | utils/step3_evaluate_predictions.py:5-22 | Reading a file succeeds iff no line fails the label lookup. A span is in the result iff the parse of some line accepts it; otherwise the error names the first failing line, and every earlier line parses without failure |
| Step3Eval.GroundTruthDuplicateLine | utils/step3_evaluate_predictions.py:10-21 | Appending a copy of any line of the file changes neither success nor the resulting set |
| Step3Eval.LineOutcomes | utils/step3_evaluate_predictions.py:12-21 | The i-th outcome is the parse of the i-th line, one outcome per line |
| Step3Eval.PredictionItem | utils/step3_evaluate_predictions.py:34-38 | An item is an error iff it is an object lacking `"label"` or `"text"`. It is dropped iff it is neither an object nor an array of at least two elements. A complete object yields (`item["label"]`, `item["text"]`); an array of two or more yields its first and last elements, skipping any in between |
| Step3Eval.LoadItems | utils/step3_evaluate_predictions.py:33-39 | The mapped list is never longer than the item list, and the only error is a missing key |
| Step3Eval.LoadItemsOne | utils/step3_evaluate_predictions.py:33-39 | A single item loads to its error, to nothing when it is dropped, or to its one pair. With `LoadItemsAppend` this fixes the output of every list |
| Step3Eval.LoadItemsOk | utils/step3_evaluate_predictions.py:33-39 | Loading succeeds exactly when every item maps without error |
| Step3Eval.LoadItemsAppend | utils/step3_evaluate_predictions.py:33-39 | Loading a concatenation gives the first part's result followed by the second's. The first error wins |
| Step3Eval.LoadItemsKeepsOrder | utils/step3_evaluate_predictions.py:33-39 | When every item yields a pair, the i-th output is the i-th item's pair, duplicates included |
| Step3Eval.LoadPredictedSpans | utils/step3_evaluate_predictions.py:31-39 | A scalar top-level value cannot be iterated (an error). An object or a string yields no pair; an array is mapped item by item |
| Step3Eval.NormalizedLabelIsNormal | utils/step3_evaluate_predictions.py:47 | A normalised label has no whitespace at either end and no upper-case letter |
| Step3Eval.NormalizedTextIsNormal | utils/step3_evaluate_predictions.py:47 | A normalised text is upper-case free and is the single-space join of its own words |
| Step3Eval.NormalTextShape | utils/step3_evaluate_predictions.py:47 | Normalised text: no whitespace at either end, only single spaces between words, no two consecutive spaces, no upper case |
| Step3Eval.NormalizedSpanIsNormal | utils/step3_evaluate_predictions.py:42-47 | Both parts of a normalised span are in normal form |
| Step3Eval.NormalizeLabelFixedPoints | utils/step3_evaluate_predictions.py:47 | Label normalisation leaves a label unchanged iff the label is in normal form |
| Step3Eval.NormalizeTextFixedPoints | utils/step3_evaluate_predictions.py:47 | Text normalisation leaves a text unchanged iff the text is in normal form |
| Step3Eval.NormalizeSpanFixedPoints | utils/step3_evaluate_predictions.py:42-47 | `normalize_span` leaves a span unchanged iff the span is in normal form |
| Step3Eval.NormalizeSpanIdempotent | utils/step3_evaluate_predictions.py:42-47 | Normalising twice is normalising once |
| Step3Eval.NormalizeTextSameWords | utils/step3_evaluate_predictions.py:47 | Two texts normalise alike iff their lower-cased words are the same: only case and the amount of whitespace are forgiven |
| Step3Eval.NormalizedWords | utils/step3_evaluate_predictions.py:47 | The words of a normalised text are the words of the lower-cased input |
| Step3Eval.NormalizeTextJoinsWords | utils/step3_evaluate_predictions.py:47 | Stripping before `split()` makes no difference: the normal text is the single-space join of the lower-cased words |
| Step3Eval.NormalizeLabelKeepsInnerSpace | utils/step3_evaluate_predictions.py:47 | Whitespace inside a label survives normalisation unchanged |
| Step3Eval.NormalizeTwoWords | utils/step3_evaluate_predictions.py:47 | Two words separated by any whitespace run normalise to the lower-cased words with one space between |
| Step3Eval.NormalizeSetMembers | utils/step3_evaluate_predictions.py:67-68 | Every member of a normalised set is a normal form and the normal form of some input span, and each input span's normal form is in it |
| Step3Eval.StringSpans | utils/step3_evaluate_predictions.py:68 | Reading the label and text strings of the predicted pairs can fail only because one of them is not a string |
| Step3Eval.StringSpansOk | utils/step3_evaluate_predictions.py:68 | That reading succeeds iff every label and text is a string. It then yields the pairs one for one, in order |
| Step3Eval.NormalizePredictions | utils/step3_evaluate_predictions.py:68 | Normalising the predictions succeeds iff every label and text is a string, and fails only on a non-string. A span is then in the result iff it is the normal form of some predicted pair |
| Step3Eval.EvaluatePredictions | utils/step3_evaluate_predictions.py:63-77 | Errors surface in order: the ground truth's, then the prediction loader's, then a non-string label or text. On success tp, fp and fn are the sizes of the intersection and the two differences of the normalised sets, tp + fn counts the distinct normalised gold spans, and the metrics are `MetricsOf` of those three counts: precision tp/(tp+fp), recall tp/(tp+fn) and their harmonic mean, each 0 when its denominator is 0, all lying in [0,1] |
| Step3Eval.EvaluationCountsPredictions | utils/step3_evaluate_predictions.py:68-72 | On success, tp + fp is the number of distinct normalised predictions |
| Step3Eval.WorkedExample | utils/step3_evaluate_predictions.py:66-77 | Gold {back pain, nausea} against predicted {"Back   Pain", fever} gives one hit, one false positive, one false negative and metrics of 0.5 |
| Scoring.Ratio | utils/step3_evaluate_predictions.py:75-76 | The guarded ratio lies in [0,1] and times the denominator gives the hits. It is 0 iff there is no hit, and 1 iff there are hits and no misses |
| Scoring.F1 | utils/step3_evaluate_predictions.py:77 | The guarded harmonic mean lies between precision and recall. It is 0 iff one of them is 0, and 1 iff both are 1 |
| Scoring.MetricsOf | utils/step3_evaluate_predictions.py:75-77 | All three metrics lie in [0,1], and each is 0 when its guard denominator is 0. All are 0 when tp = 0, and all are 1 when tp > 0 and fp = fn = 0 |
| Scoring.F1ClosedForm | utils/step3_evaluate_predictions.py:75-77 | With tp > 0, F1 equals 2·tp / (2·tp + fp + fn) |
| Scoring.SwapErrors | utils/step3_evaluate_predictions.py:75-77 | Exchanging fp and fn exchanges precision and recall and leaves F1 unchanged |
| Scoring.UnequalErrorsSplitPrecisionRecall | utils/step3_evaluate_predictions.py:75-76 | With tp > 0, fp ≠ fn makes precision differ from recall |
| Scoring.ScoreSets | utils/step3_evaluate_predictions.py:71-77 | tp + fp counts the predicted set, tp + fn the gold set and tp + fp + fn their union, so tp is the size of the intersection. The metrics are those of the three counts. Precision is 1 iff the prediction is a non-empty subset of gold; recall is 1 iff gold is a non-empty subset of the prediction. fp = fn = 0 iff the sets are equal |
| AdrEval.LineFields | utils/evaluation_adr.py:11-19 | A line that passes the shared skip rules always has a first label token, because splitting on a space never gives an empty list |
| AdrEval.FieldsOfStripped | utils/evaluation_adr.py:11-19 | A line that strips to three or more tab fields, not starting with `#`, keeps its second field split on single spaces and its third field unstripped. Any further fields are ignored |
| AdrEval.Offsets | utils/evaluation_adr.py:20-24 | Offsets are read iff the second and third tokens exist and are integers, and they are those integers |
| AdrEval.ParseAllAsAdrLine | utils/evaluation_adr.py:11-25 | An entity from the relabelling reader is always labelled `ADR` |
| AdrEval.ParseAdrOnlyLine | utils/evaluation_adr.py:36-53 | An entity from the label-only reader is labelled `ADR` |
| AdrEval.ReadAllAsAdr | utils/evaluation_adr.py:3-26 | Every entity read is labelled `ADR`, and there are at most as many entities as lines |
| AdrEval.ReadAdrOnly | utils/evaluation_adr.py:29-54 | Every entity read is labelled `ADR`, and there are at most as many entities as lines |
| AdrEval.AdrSkipRules | utils/evaluation_adr.py:11-16 | Blank lines, lines that start with `#` once stripped, and lines with fewer than three tab fields give no entity in either reader |
| AdrEval.AllAsAdrLineSpec | utils/evaluation_adr.py:19-25 | A line past the skip rules is kept iff its second and third label tokens exist and are integers, and then yields exactly (ADR, start, end, text). Otherwise it is dropped, never an error |
| AdrEval.AdrOnlyLineIsFiltered | utils/evaluation_adr.py:44-53 | The label-only reader on a line is the relabelling reader when the label is `ADR`, and nothing otherwise |
| AdrEval.AdrReadsAnnLine | utils/evaluation_adr.py:11-25 | A well-formed annotation line, indented or not, reads back as its offsets and text. The label-only reader keeps it iff its label is `ADR` |
| AdrEval.DiscontiguousRangeDropped | utils/evaluation_adr.py:19-24 | A third label token containing `;` makes both readers drop the line |
| AdrEval.DiscontiguousOffsets | utils/evaluation_adr.py:19-24 | The label field of a discontiguous range, `LABEL a b;c d`, never yields offsets |
| AdrEval.IndentedCommentReadersDisagree | utils/evaluation_adr.py:11-13 | An indented `#` line is skipped by both ADR readers, while the ground-truth reader of the step-3 script accepts it |
| AdrEval.ReadAllAsAdrAppend | utils/evaluation_adr.py:8-26 | Entities come out in file order: reading a concatenation of lines is concatenating the readings |
| AdrEval.ReadAdrOnlyAppend | utils/evaluation_adr.py:33-54 | The same, for the label-only reader |
| AdrEval.ReadOneLine | utils/evaluation_adr.py:10-25 | A single line yields exactly its own entity when accepted, and nothing otherwise |
| AdrEval.AdrLines | utils/evaluation_adr.py:44-47 | The `ADR`-labelled lines are lines of the file, each labelled `ADR` |
| AdrEval.AdrOnlyIsSubsequence | utils/evaluation_adr.py:29-54 | The label-only reader equals the relabelling reader run on the subsequence of lines labelled `ADR` |
| AdrEval.NoAdrLinesNoEntities | utils/evaluation_adr.py:44-47 | A file with no line labelled `ADR` yields no entity in the label-only reader |
| AdrEval.CompareEntities | utils/evaluation_adr.py:57-64 | tp and fp partition set(pred), and tp and fn partition set(gt). fp is disjoint from gt and fn from pred |
| AdrEval.CompareWithSelf | utils/evaluation_adr.py:57-64 | Comparing a list with itself gives fp = fn = ∅ and tp = set(pred) |
| AdrEval.ComputeMetrics | utils/evaluation_adr.py:67-72 | The metrics lie in [0,1], and each is 0 when its denominator is 0. All are 0 without a hit; all are 1 with hits and no errors |
| AdrEval.ScoresAgree | utils/evaluation_adr.py:67-72 | `compare_entities` followed by `compute_metrics` gives the metrics that the step-3 block computes for the same two sets |
| AdrEval.CompareRelabelled | utils/evaluation_adr.py:57-72 | Renaming entities one-to-one renames tp, fp and fn and leaves the metrics unchanged |
| Ints.ParseInt | utils/evaluation_adr.py:21-22 | `int` succeeds only on a string that contains a digit. An information separator (0x1C..0x1F) anywhere makes it fail, since `int` skips only tab..CR and the space around the literal |
| Ints.ParseIntToString | utils/evaluation_adr.py:21-22 | `int(str(i)) == i` for every integer |
| Ints.ParseIntLiteral | utils/evaluation_adr.py:21-22 | A literal padded with tab..CR or spaces, with an optional `+` or `-`, reads as the value of its digits, negated after a minus |
| Ints.UnderscoreIgnored | utils/evaluation_adr.py:21-22 | An underscore between digits adds nothing to the value of a literal |
| Ints.ParseIntRejects | utils/evaluation_adr.py:21-24 | A visible character other than a digit, `_` or a sign anywhere in the token makes `int` fail |
| Text.Strip | utils/evaluation_adr.py:11 | The stripped string is the slice of the input between a whitespace prefix and a whitespace suffix, and neither of its ends is whitespace |
| Text.StripEmptyIffAllSpace | utils/step3_evaluate_predictions.py:13 | `line.strip()` is empty iff the line is all whitespace |
| Text.StripPadded | utils/evaluation_adr.py:11 | Stripping removes exactly the whitespace around a text whose ends are visible |
| Text.SplitOn | utils/evaluation_adr.py:14 | `split(c)` gives one more piece than there are separators, and no piece contains the separator |
| Text.JoinSplitOn | utils/evaluation_adr.py:14 | Joining the pieces of `split(c)` with `c` gives back the original string |
| Text.SplitOnJoin | utils/evaluation_adr.py:19 | Splitting the join of separator-free pieces gives back the pieces |
| Text.Words | utils/step3_evaluate_predictions.py:18 | `split()` yields non-empty whitespace-free words made of characters of the input |
| Text.WordsEmptyIffAllSpace | utils/step3_evaluate_predictions.py:18-19 | `split()` is empty iff the string is all whitespace: this is when `[0]` raises |
| Text.WordsOfJoin | utils/step3_evaluate_predictions.py:47 | Splitting words joined by single spaces gives back the words |
| Text.WordsStrip | utils/step3_evaluate_predictions.py:47 | `split()` after `strip()` is `split()` |
| Text.LowerStrip | utils/step3_evaluate_predictions.py:47 | Lower-casing commutes with stripping |

## Left out

- `utils/step5_evaluate.py` is a batch script: hard-coded paths, file lists, existence checks and pandas output. It only orchestrates I/O and is not part of this model.
- Opening and reading files, and cutting a file into lines. Each reader starts from the sequence of lines.
- `json.load`. Predictions start from the decoded JSON value; Python tuples cannot come out of JSON, so only arrays are modelled.
- The output side of `evaluate_predictions`: the results dictionary, the CSV and JSON files, `os.makedirs`, the print and the `FileNotFoundError` checks (utils/step3_evaluate_predictions.py:55-61, 79-101).
- IEEE floating point and the mean across files. Ratios are exact reals, so no rounding is modelled.
- Unicode. Whitespace is the ASCII set that `str.isspace` accepts, `lower` maps only `A`–`Z`, and `int` accepts only ASCII digits. Python applies all three to the whole of Unicode.
- Ints.ParseInt: ignores the limit on the number of digits that Python 3.11 and later put on `int` (4300 by default, configurable with `sys.set_int_max_str_digits`), because it depends on the interpreter version and setting. Offsets in annotation files are far below it.
- Scoring.UnequalErrorsSplitPrecisionRecall: requires tp > 0, since with no hit precision and recall are both 0 whatever fp and fn are.

=== FILE: adr_eval.dfy ===
/**
 * The annotation readers and the scoring of `utils/evaluation_adr.py`.
 *
 * Both readers strip each line, skip blank and `#` lines and lines with
 * fewer than three tab-separated fields, split the second field on single
 * spaces and read the second and third tokens as integer offsets; a line
 * whose offsets are missing or not integers is dropped, never an error.
 * `read_ann_file_all_as_adr` relabels every entity `ADR`;
 * `read_ann_file_adr_only` keeps only the lines labelled `ADR`.
 */
module AdrEval {
  import opened Results
  import opened Text
  import opened Ints
  import opened Scoring
  import opened AnnFormat
  import Step3Eval

  /** `(label, start, end, text)`. */
  datatype Entity = Entity(tag: string, start: int, end: int, text: string)

  /** What the shared front of both loops keeps of a line: the second field
      split on single spaces, and the third field as it stands. */
  datatype AnnFields = AnnFields(labelParts: seq<string>, text: string)

  /** Strip, drop blank and `#` lines, split on tabs, drop lines with fewer
      than three fields. */
  function LineFields(line: string): (r: Option<AnnFields>)
    ensures r.Some? ==> |r.value.labelParts| > 0
  {
    var t := Strip(line);
    if t == [] || t[0] == '#' then None
    else
      var parts := SplitOn(t, '\t');
      if |parts| < 3 then None
      else Some(AnnFields(SplitOn(parts[1], ' '), parts[2]))
  }

  /** The `try` block: `int(label_parts[1])`, then `int(label_parts[2])`.
      A missing token (IndexError) or a non-integer (ValueError) gives
      `None`. */
  function Offsets(labelParts: seq<string>): (r: Option<(int, int)>)
    ensures r.Some? <==>
            |labelParts| >= 3 && ParseInt(labelParts[1]).Some? && ParseInt(labelParts[2]).Some?
    ensures r.Some? ==> r.value == (ParseInt(labelParts[1]).value, ParseInt(labelParts[2]).value)
  {
    if |labelParts| < 2 then None
    else
      match ParseInt(labelParts[1])
      case None => None
      case Some(start) =>
        if |labelParts| < 3 then None
        else
          match ParseInt(labelParts[2])
          case None => None
          case Some(end) => Some((start, end))
  }

  /** The label of a line that gets past the shared front. */
  function LabelOf(line: string): Option<string> {
    match LineFields(line)
    case None => None
    case Some(f) => Some(f.labelParts[0])
  }

  /** One iteration of `read_ann_file_all_as_adr`. */
  function ParseAllAsAdrLine(line: string): (r: Option<Entity>)
    ensures r.Some? ==> r.value.tag == "ADR"
  {
    match LineFields(line)
    case None => None
    case Some(f) =>
      match Offsets(f.labelParts)
      case None => None
      case Some((start, end)) => Some(Entity("ADR", start, end, f.text))
  }

  /** One iteration of `read_ann_file_adr_only`: the label test comes before
      the offsets are read. */
  function ParseAdrOnlyLine(line: string): (r: Option<Entity>)
    ensures r.Some? ==> r.value.tag == "ADR"
  {
    match LineFields(line)
    case None => None
    case Some(f) =>
      var tag := f.labelParts[0];
      if tag != "ADR" then None
      else
        match Offsets(f.labelParts)
        case None => None
        case Some((start, end)) => Some(Entity(tag, start, end, f.text))
  }

  // ---------------------------------------------------------------------------
  // Collecting the entities of a file

  /** The present values, in order. */
  function Somes<T>(xs: seq<Option<T>>): (r: seq<T>)
    ensures |r| <= |xs|
    ensures forall i :: 0 <= i < |r| ==> Some(r[i]) in xs
    decreases |xs|
  {
    if |xs| == 0 then []
    else
      var n := |xs| - 1;
      var init := Somes(xs[..n]);
      match xs[n]
      case None => init
      case Some(x) => init + [x]
  }

  lemma {:induction false} SomesAppend<T>(a: seq<Option<T>>, b: seq<Option<T>>)
    ensures Somes(a + b) == Somes(a) + Somes(b)
    decreases |b|
  {
    if |b| == 0 {
      assert a + b == a;
    } else {
      var n := |b| - 1;
      assert (a + b)[..|a| + n] == a + b[..n];
      assert (a + b)[|a| + n] == b[n];
      SomesAppend(a, b[..n]);
      match b[n]
      case None =>
      case Some(x) => assert Somes(a) + (Somes(b[..n]) + [x]) == (Somes(a) + Somes(b[..n])) + [x];
    }
  }

  lemma {:induction false} SomesAllNone<T>(xs: seq<Option<T>>)
    requires forall i :: 0 <= i < |xs| ==> xs[i] == None
    ensures Somes(xs) == []
    decreases |xs|
  {
    if |xs| > 0 {
      SomesAllNone(xs[..|xs| - 1]);
    }
  }

  /** `f` applied to each element, in order. */
  function MapSeq<A, B>(f: A -> B, xs: seq<A>): (r: seq<B>)
    ensures |r| == |xs| && forall i :: 0 <= i < |xs| ==> r[i] == f(xs[i])
  {
    seq(|xs|, i requires 0 <= i < |xs| => f(xs[i]))
  }

  lemma MapSeqAppend<A, B>(f: A -> B, a: seq<A>, b: seq<A>)
    ensures MapSeq(f, a + b) == MapSeq(f, a) + MapSeq(f, b)
  {
    var all := a + b;
    assert forall i :: 0 <= i < |a| ==> all[i] == a[i];
    assert forall i :: 0 <= i < |b| ==> all[|a| + i] == b[i];
  }

  function AllAsAdrOutcomes(lines: seq<string>): (r: seq<Option<Entity>>)
    ensures |r| == |lines| && forall i :: 0 <= i < |lines| ==> r[i] == ParseAllAsAdrLine(lines[i])
  {
    MapSeq(ParseAllAsAdrLine, lines)
  }

  function AdrOnlyOutcomes(lines: seq<string>): (r: seq<Option<Entity>>)
    ensures |r| == |lines| && forall i :: 0 <= i < |lines| ==> r[i] == ParseAdrOnlyLine(lines[i])
  {
    MapSeq(ParseAdrOnlyLine, lines)
  }

  /** `read_ann_file_all_as_adr`: every entity is labelled `ADR`, and each
      comes from one accepted line. */
  function ReadAllAsAdr(lines: seq<string>): (r: seq<Entity>)
    ensures |r| <= |lines|
    ensures forall i :: 0 <= i < |r| ==> r[i].tag == "ADR"
  {
    Somes(AllAsAdrOutcomes(lines))
  }

  /** `read_ann_file_adr_only`: only entities labelled exactly `ADR`. */
  function ReadAdrOnly(lines: seq<string>): (r: seq<Entity>)
    ensures |r| <= |lines|
    ensures forall i :: 0 <= i < |r| ==> r[i].tag == "ADR"
  {
    Somes(AdrOnlyOutcomes(lines))
  }

  // ---------------------------------------------------------------------------
  // Line-level properties

  /** Blank lines, lines that start with `#` once stripped, and lines with
      fewer than two tabs once stripped give no entity in either reader. */
  lemma AdrSkipRules(line: string)
    requires || AllSpace(line)
             || (Strip(line) != [] && Strip(line)[0] == '#')
             || multiset(Strip(line))['\t'] < 2
    ensures LineFields(line) == None
    ensures ParseAllAsAdrLine(line) == None && ParseAdrOnlyLine(line) == None
  {
    StripEmptyIffAllSpace(line);
  }

  /** A line that gets past the skip rules is kept by the relabelling reader
      exactly when its second and third label tokens exist and are integers;
      otherwise it is dropped, never an error. */
  lemma AllAsAdrLineSpec(line: string)
    ensures ParseAllAsAdrLine(line).Some? <==>
            && LineFields(line).Some?
            && var lp := LineFields(line).value.labelParts;
               |lp| >= 3 && ParseInt(lp[1]).Some? && ParseInt(lp[2]).Some?
    ensures ParseAllAsAdrLine(line).Some? ==>
            var f := LineFields(line).value;
            ParseAllAsAdrLine(line).value
            == Entity("ADR", ParseInt(f.labelParts[1]).value, ParseInt(f.labelParts[2]).value, f.text)
  {
  }

  /** The label-only reader keeps a line exactly when the relabelling reader
      does and its label is `ADR`, and then keeps the same entity. */
  lemma AdrOnlyLineIsFiltered(line: string)
    ensures ParseAdrOnlyLine(line)
            == if LabelOf(line) == Some("ADR") then ParseAllAsAdrLine(line) else None
  {
  }

  /** A well-formed annotation line, possibly indented and terminated, is
      read back into its offsets and text; the relabelling reader forgets
      its label, the label-only reader keeps the line exactly when the label
      is `ADR`. */
  lemma AdrReadsAnnLine(pad: string, id: string, tag: string, start: int, end: int,
                        text: string, eol: string)
    requires AllSpace(pad) && AllSpace(eol)
    requires GoodId(id) && ' ' !in tag && '\t' !in tag && GoodText(text)
    ensures ParseAllAsAdrLine(pad + AnnLine(id, tag, start, end, text) + eol)
            == Some(Entity("ADR", start, end, text))
    ensures ParseAdrOnlyLine(pad + AnnLine(id, tag, start, end, text) + eol)
            == if tag == "ADR" then Some(Entity("ADR", start, end, text)) else None
  {
    var raw := pad + AnnLine(id, tag, start, end, text) + eol;
    var lp := [tag, IntToString(start), IntToString(end)];
    FieldsOfAnnLine(pad, id, tag, start, end, text, eol);
    OffsetsOfInts(tag, start, end);
    ParseOfFields(raw, AnnFields(lp, text), start, end);
  }

  lemma FieldsOfAnnLine(pad: string, id: string, tag: string, start: int, end: int,
                        text: string, eol: string)
    requires AllSpace(pad) && AllSpace(eol)
    requires GoodId(id) && ' ' !in tag && '\t' !in tag && GoodText(text)
    ensures LineFields(pad + AnnLine(id, tag, start, end, text) + eol)
            == Some(AnnFields([tag, IntToString(start), IntToString(end)], text))
  {
    LabelRangesNoTab(tag, start, end);
    LabelRangesTokens(tag, start, end);
    AnnLineIsTabLine(id, tag, start, end, text);
    FieldsOfTabLine(pad, id, LabelRanges(tag, start, end), text, eol);
  }

  /** The offsets `str` wrote read back. */
  lemma OffsetsOfInts(tag: string, start: int, end: int)
    ensures Offsets([tag, IntToString(start), IntToString(end)]) == Some((start, end))
  {
    ParseIntToString(start);
    ParseIntToString(end);
  }

  /** Both readers on a line whose fields and offsets are known. */
  lemma ParseOfFields(raw: string, f: AnnFields, start: int, end: int)
    requires LineFields(raw) == Some(f) && Offsets(f.labelParts) == Some((start, end))
    ensures ParseAllAsAdrLine(raw) == Some(Entity("ADR", start, end, f.text))
    ensures ParseAdrOnlyLine(raw)
            == if f.labelParts[0] == "ADR" then Some(Entity("ADR", start, end, f.text)) else None
  {
  }

  /** The fields a well-formed three-field line yields. */
  lemma FieldsOfTabLine(pad: string, id: string, mid: string, text: string, eol: string)
    requires AllSpace(pad) && AllSpace(eol)
    requires GoodId(id) && '\t' !in mid && GoodText(text)
    ensures LineFields(pad + TabLine(id, mid, text) + eol) == Some(AnnFields(SplitOn(mid, ' '), text))
  {
    var line := TabLine(id, mid, text);
    assert Strip(pad + line + eol) == line && SplitOn(line, '\t') == [id, mid, text] by {
      TabLineFields(pad, id, mid, text, eol);
    }
    assert line[0] == id[0];
    FieldsOfThree(pad + line + eol, line, id, mid, text);
  }

  /** A line that strips to three or more fields, the first not a comment,
      keeps the second field split on spaces and the third as it stands;
      any further fields are ignored. */
  lemma FieldsOfStripped(raw: string)
    requires Strip(raw) != [] && Strip(raw)[0] != '#' && |SplitOn(Strip(raw), '\t')| >= 3
    ensures var parts := SplitOn(Strip(raw), '\t');
            LineFields(raw) == Some(AnnFields(SplitOn(parts[1], ' '), parts[2]))
  {
  }

  /** `FieldsOfStripped` for a line whose three fields are given. */
  lemma FieldsOfThree(raw: string, t: string, a: string, b: string, c: string)
    requires Strip(raw) == t && |t| > 0 && t[0] != '#'
    requires SplitOn(t, '\t') == [a, b, c]
    ensures LineFields(raw) == Some(AnnFields(SplitOn(b, ' '), c))
  {
    FieldsOfStripped(raw);
  }

  /** A discontiguous range such as `ADR 10 20;25 30`: its third token holds
      a `;`, so the offsets cannot be read and both readers drop the line. */
  lemma DiscontiguousRangeDropped(line: string, k: nat)
    requires LineFields(line).Some?
    requires var lp := LineFields(line).value.labelParts;
             |lp| >= 3 && k < |lp[2]| && lp[2][k] == ';'
    ensures ParseAllAsAdrLine(line) == None && ParseAdrOnlyLine(line) == None
  {
    ParseIntRejects(LineFields(line).value.labelParts[2], k);
  }

  /** The label field of a discontiguous range, `LABEL a b;c d`, cannot be
      read: its third token `b;c` is not an integer. */
  lemma DiscontiguousOffsets(tag: string, a: int, b: int, c: int, d: int)
    requires ' ' !in tag
    ensures var mid := tag + " " + IntToString(a) + " " + IntToString(b) + ";"
                       + IntToString(c) + " " + IntToString(d);
            Offsets(SplitOn(mid, ' ')) == None
  {
    var sa, sb, sc, sd := IntToString(a), IntToString(b), IntToString(c), IntToString(d);
    var third := sb + ";" + sc;
    var lp := [tag, sa, third, sd];
    assert SplitOn(tag + " " + sa + " " + sb + ";" + sc + " " + sd, ' ') == lp by {
      NoSpaceInInt(a);
      NoSpaceInInt(b);
      NoSpaceInInt(c);
      NoSpaceInInt(d);
      DiscontiguousTokens(tag, sa, sb, sc, sd);
    }
    assert ParseInt(lp[2]) == None by {
      assert third[|sb|] == ';';
      ParseIntRejects(third, |sb|);
    }
  }

  lemma NoSpaceInInt(i: int)
    ensures ' ' !in IntToString(i)
  {
    IntToStringVisible(i);
  }

  lemma DiscontiguousTokens(tag: string, sa: string, sb: string, sc: string, sd: string)
    requires ' ' !in tag && ' ' !in sa && ' ' !in sb && ' ' !in sc && ' ' !in sd
    ensures SplitOn(tag + " " + sa + " " + sb + ";" + sc + " " + sd, ' ') == [tag, sa, sb + ";" + sc, sd]
  {
    var third := sb + ";" + sc;
    assert ' ' !in third by {
      NoSpaceAround(sb, ';', sc);
    }
    assert tag + " " + sa + " " + sb + ";" + sc + " " + sd
           == tag + [' '] + (sa + [' '] + (third + [' '] + sd));
    FourSpaceTokens(tag, sa, third, sd);
  }

  lemma NoSpaceAround(a: string, c: char, b: string)
    requires ' ' !in a && c != ' ' && ' ' !in b
    ensures ' ' !in a + [c] + b
  {
  }

  lemma FourSpaceTokens(a: string, b: string, c: string, d: string)
    requires ' ' !in a && ' ' !in b && ' ' !in c && ' ' !in d
    ensures SplitOn(a + [' '] + (b + [' '] + (c + [' '] + d)), ' ') == [a, b, c, d]
  {
    SplitOnNoSep(d, ' ');
    SplitOnFirstSep(c, ' ', d);
    SplitOnFirstSep(b, ' ', c + [' '] + d);
    SplitOnFirstSep(a, ' ', b + [' '] + (c + [' '] + d));
  }

  /** A line with a `#` after its indentation is a comment here, while the
      ground-truth reader of `step3_evaluate_predictions.py`, which tests
      only the first column, reads it as a span. */
  lemma IndentedCommentReadersDisagree(pad: string, id: string, tag: string, start: int, end: int,
                                       text: string, eol: string)
    requires |pad| > 0 && AllSpace(pad) && AllSpace(eol)
    requires |id| > 0 && id[0] == '#' && '\t' !in id
    requires IsWord(tag) && GoodText(text)
    ensures ParseAllAsAdrLine(pad + AnnLine(id, tag, start, end, text) + eol) == None
    ensures ParseAdrOnlyLine(pad + AnnLine(id, tag, start, end, text) + eol) == None
    ensures Step3Eval.ParseGroundTruthLine(pad + AnnLine(id, tag, start, end, text) + eol)
            == Step3Eval.Accepted(Step3Eval.Span(tag, Strip(text)))
  {
    assert '\t' !in tag;
    AnnLineFields(pad, id, tag, start, end, text, eol);
    Step3Eval.GroundTruthReadsAnnLine(pad, id, tag, start, end, text, eol);
  }

  // ---------------------------------------------------------------------------
  // File-level properties

  /** Entities come out in file order: reading two pieces of a file one
      after the other is reading the whole. */
  lemma ReadAllAsAdrAppend(a: seq<string>, b: seq<string>)
    ensures ReadAllAsAdr(a + b) == ReadAllAsAdr(a) + ReadAllAsAdr(b)
  {
    MapSeqAppend(ParseAllAsAdrLine, a, b);
    SomesAppend(AllAsAdrOutcomes(a), AllAsAdrOutcomes(b));
  }

  lemma ReadAdrOnlyAppend(a: seq<string>, b: seq<string>)
    ensures ReadAdrOnly(a + b) == ReadAdrOnly(a) + ReadAdrOnly(b)
  {
    MapSeqAppend(ParseAdrOnlyLine, a, b);
    SomesAppend(AdrOnlyOutcomes(a), AdrOnlyOutcomes(b));
  }

  /** Each line on its own yields at most one entity: exactly one when it
      is accepted. */
  lemma ReadOneLine(line: string)
    ensures ReadAllAsAdr([line]) == if ParseAllAsAdrLine(line).Some? then [ParseAllAsAdrLine(line).value] else []
    ensures ReadAdrOnly([line]) == if ParseAdrOnlyLine(line).Some? then [ParseAdrOnlyLine(line).value] else []
  {
    assert AllAsAdrOutcomes([line]) == [ParseAllAsAdrLine(line)];
    assert AdrOnlyOutcomes([line]) == [ParseAdrOnlyLine(line)];
    assert [ParseAllAsAdrLine(line)][..0] == [];
    assert [ParseAdrOnlyLine(line)][..0] == [];
  }

  /** The lines whose label is `ADR`, in order. */
  function AdrLines(lines: seq<string>): (r: seq<string>)
    ensures |r| <= |lines|
    ensures forall i :: 0 <= i < |r| ==> r[i] in lines && LabelOf(r[i]) == Some("ADR")
    decreases |lines|
  {
    if |lines| == 0 then []
    else
      var n := |lines| - 1;
      var init := AdrLines(lines[..n]);
      if LabelOf(lines[n]) == Some("ADR") then init + [lines[n]] else init
  }

  /** `read_ann_file_adr_only` is `read_ann_file_all_as_adr` on the lines
      labelled `ADR`: the same entities, in the same order. */
  lemma {:induction false} AdrOnlyIsSubsequence(lines: seq<string>)
    ensures ReadAdrOnly(lines) == ReadAllAsAdr(AdrLines(lines))
    decreases |lines|
  {
    if |lines| == 0 {
      assert AdrOnlyOutcomes(lines) == [];
      assert AllAsAdrOutcomes(AdrLines(lines)) == [];
    } else {
      var n := |lines| - 1;
      var init, line := lines[..n], lines[n];
      assert lines == init + [line];
      AdrOnlyIsSubsequence(init);
      ReadAdrOnlyAppend(init, [line]);
      ReadOneLine(line);
      AdrOnlyLineIsFiltered(line);
      if LabelOf(line) == Some("ADR") {
        ReadAllAsAdrAppend(AdrLines(init), [line]);
      } else {
        assert AdrLines(lines) == AdrLines(init);
      }
    }
  }

  /** A file without an `ADR` line yields nothing in the label-only reader. */
  lemma NoAdrLinesNoEntities(lines: seq<string>)
    requires forall i :: 0 <= i < |lines| ==> LabelOf(lines[i]) != Some("ADR")
    ensures ReadAdrOnly(lines) == []
  {
    SomesAllNone(AdrOnlyOutcomes(lines));
    var outcomes := AdrOnlyOutcomes(lines);
    forall i | 0 <= i < |outcomes|
      ensures outcomes[i] == None
    {
      AdrOnlyLineIsFiltered(lines[i]);
    }
  }

  // ---------------------------------------------------------------------------
  // Comparison and metrics

  /** The members of a list, as `set(xs)` gives them. */
  function Elements<T>(xs: seq<T>): set<T> {
    set x | x in xs
  }

  datatype Comparison<T> = Comparison(tp: set<T>, fp: set<T>, fn: set<T>)

  /** `compare_entities`: hits, predicted-only and gold-only entities. */
  function CompareEntities<T>(pred: seq<T>, gt: seq<T>): (c: Comparison<T>)
    ensures c.tp * c.fp == {} && c.tp + c.fp == Elements(pred)
    ensures c.tp + c.fn == Elements(gt) && c.tp * c.fn == {}
    ensures c.fp * Elements(gt) == {} && c.fn * Elements(pred) == {}
    ensures c.tp <= Elements(pred) && c.tp <= Elements(gt)
  {
    var predSet, gtSet := Elements(pred), Elements(gt);
    Comparison(predSet * gtSet, predSet - gtSet, gtSet - predSet)
  }

  /** Comparing a list with itself finds every entity and no error. */
  lemma CompareWithSelf<T>(xs: seq<T>)
    ensures var c := CompareEntities(xs, xs);
            c.fp == {} && c.fn == {} && c.tp == Elements(xs)
  {
  }

  /** `compute_metrics` on the three sets. */
  function ComputeMetrics<T>(tp: set<T>, fp: set<T>, fn: set<T>): (m: Metrics)
    ensures 0.0 <= m.precision <= 1.0 && 0.0 <= m.recall <= 1.0 && 0.0 <= m.f1 <= 1.0
    ensures tp == {} && fp == {} ==> m.precision == 0.0
    ensures tp == {} && fn == {} ==> m.recall == 0.0
    ensures m.precision + m.recall == 0.0 ==> m.f1 == 0.0
    ensures tp == {} ==> m == Metrics(0.0, 0.0, 0.0)
    ensures tp != {} && fp == {} && fn == {} ==> m == Metrics(1.0, 1.0, 1.0)
  {
    MetricsOf(|tp|, |fp|, |fn|)
  }

  /** Scoring through `compare_entities` and `compute_metrics` gives the
      metrics `step3_evaluate_predictions.py` computes for the same two
      sets. */
  lemma ScoresAgree<T>(pred: seq<T>, gt: seq<T>)
    ensures var c := CompareEntities(pred, gt);
            ComputeMetrics(c.tp, c.fp, c.fn) == ScoreSets(Elements(gt), Elements(pred)).metrics
  {
    var p, g := Elements(pred), Elements(gt);
    assert p * g == g * p;
  }

  // ---------------------------------------------------------------------------
  // Relabelling

  /** The image of a set under a renaming of its members. */
  function Image<T, U>(s: set<T>, f: T -> U): set<U> {
    set x | x in s :: f(x)
  }

  /** A renaming that never merges two members keeps the size of a set. */
  lemma {:induction false} ImageSize<T, U>(s: set<T>, f: T -> U)
    requires forall x, y :: x in s && y in s && f(x) == f(y) ==> x == y
    ensures |Image(s, f)| == |s|
    decreases |s|
  {
    if s != {} {
      var x :| x in s;
      var rest := s - {x};
      ImageSize(rest, f);
      assert Image(s, f) == Image(rest, f) + {f(x)};
      assert f(x) !in Image(rest, f);
    }
  }

  lemma ElementsMapped<T, U>(xs: seq<T>, f: T -> U)
    ensures Elements(MapSeq(f, xs)) == Image(Elements(xs), f)
  {
    var ys := MapSeq(f, xs);
    forall y | y in Elements(ys)
      ensures y in Image(Elements(xs), f)
    {
      var i :| 0 <= i < |ys| && ys[i] == y;
      assert xs[i] in Elements(xs);
    }
    forall y | y in Image(Elements(xs), f)
      ensures y in Elements(ys)
    {
      var x :| x in Elements(xs) && f(x) == y;
      var i :| 0 <= i < |xs| && xs[i] == x;
      assert ys[i] == y;
    }
  }

  /** A one-to-one renaming commutes with intersection and difference. */
  lemma ImageSetOps<T, U>(a: set<T>, b: set<T>, f: T -> U)
    requires forall x, y :: f(x) == f(y) ==> x == y
    ensures Image(a * b, f) == Image(a, f) * Image(b, f)
    ensures Image(a - b, f) == Image(a, f) - Image(b, f)
  {
    forall y | y in Image(a, f) * Image(b, f)
      ensures y in Image(a * b, f)
    {
      var x :| x in a && f(x) == y;
      var x' :| x' in b && f(x') == y;
    }
    forall y | y in Image(a, f) - Image(b, f)
      ensures y in Image(a - b, f)
    {
      var x :| x in a && f(x) == y;
    }
  }

  /** Comparing renamed entities, the renaming one-to-one, finds the renamed
      hits, false positives and false negatives, so the metrics do not
      depend on what the entities are called. */
  lemma CompareRelabelled<T, U>(pred: seq<T>, gt: seq<T>, f: T -> U)
    requires forall x, y :: f(x) == f(y) ==> x == y
    ensures var c, d := CompareEntities(pred, gt), CompareEntities(MapSeq(f, pred), MapSeq(f, gt));
            && d == Comparison(Image(c.tp, f), Image(c.fp, f), Image(c.fn, f))
            && ComputeMetrics(d.tp, d.fp, d.fn) == ComputeMetrics(c.tp, c.fp, c.fn)
  {
    var p, g := Elements(pred), Elements(gt);
    ElementsMapped(pred, f);
    ElementsMapped(gt, f);
    ImageSetOps(p, g, f);
    ImageSetOps(g, p, f);
    ImageSize(p * g, f);
    ImageSize(p - g, f);
    ImageSize(g - p, f);
  }
}

=== FILE: ann_format.dfy ===
/**
 * The annotation line both readers parse,
 *
 *     id <TAB> LABEL start end <TAB> text
 *
 * written out from its parts, and what splitting such a line gives back.
 * The readers' round-trip lemmas are built on these facts.
 */
module AnnFormat {
  import opened Text
  import opened Ints

  /** The second field: the entity label (`tag`; `label` is a Dafny keyword)
      and two offsets, separated by single spaces. */
  function LabelRanges(tag: string, start: int, end: int): string {
    tag + " " + IntToString(start) + " " + IntToString(end)
  }

  function AnnLine(id: string, tag: string, start: int, end: int, text: string): string {
    id + "\t" + LabelRanges(tag, start, end) + "\t" + text
  }

  /** An identifier that cannot be mistaken for whitespace or a comment and
      does not contain a field separator. */
  predicate GoodId(id: string) {
    |id| > 0 && !IsSpace(id[0]) && id[0] != '#' && '\t' !in id
  }

  /** Entity text that ends in a visible character and holds no tab. */
  predicate GoodText(text: string) {
    |text| > 0 && !IsSpace(text[|text| - 1]) && '\t' !in text
  }

  lemma IntToStringVisible(i: int)
    ensures var s := IntToString(i);
            |s| > 0 && forall k :: 0 <= k < |s| ==> s[k] == '-' || IsDigit(s[k])
  {
  }

  lemma LabelRangesNoTab(tag: string, start: int, end: int)
    requires '\t' !in tag
    ensures '\t' !in LabelRanges(tag, start, end)
  {
    IntToStringVisible(start);
    IntToStringVisible(end);
  }

  /** The second field splits on single spaces into tag, start and end. */
  lemma LabelRangesTokens(tag: string, start: int, end: int)
    requires ' ' !in tag
    ensures SplitOn(LabelRanges(tag, start, end), ' ')
            == [tag, IntToString(start), IntToString(end)]
  {
    var s1, s2 := IntToString(start), IntToString(end);
    IntToStringVisible(start);
    IntToStringVisible(end);
    assert LabelRanges(tag, start, end) == Join([tag, s1, s2], " ") by {
      assert Join([tag, s1, s2], " ") == tag + " " + Join([s1, s2], " ");
      assert [tag, s1, s2][1..] == [s1, s2];
      assert [s1, s2][1..] == [s2];
    }
    SplitOnJoin([tag, s1, s2], ' ');
  }

  /** The second field splits on whitespace with the tag first. */
  lemma LabelRangesWords(tag: string, start: int, end: int)
    requires IsWord(tag)
    ensures var ws := Words(LabelRanges(tag, start, end));
            |ws| > 0 && ws[0] == tag
  {
    var rest := IntToString(start) + " " + IntToString(end);
    assert LabelRanges(tag, start, end) == tag + " " + rest;
    WordsWordThenSpace(tag, rest);
  }

  /** With whitespace around it (an indent, the line terminator), a line
      strips to itself and splits on tabs into its three fields. */
  lemma AnnLineFields(pad: string, id: string, tag: string, start: int, end: int,
                      text: string, eol: string)
    requires AllSpace(pad) && AllSpace(eol)
    requires |id| > 0 && !IsSpace(id[0]) && '\t' !in id
    requires GoodText(text) && '\t' !in tag
    ensures var line := AnnLine(id, tag, start, end, text);
            && Strip(pad + line + eol) == line
            && SplitOn(line, '\t') == [id, LabelRanges(tag, start, end), text]
  {
    LabelRangesNoTab(tag, start, end);
    TabLineFields(pad, id, LabelRanges(tag, start, end), text, eol);
  }

  /** Three tab-separated fields, whatever the middle one holds. */
  function TabLine(id: string, mid: string, text: string): string {
    id + "\t" + mid + "\t" + text
  }

  lemma AnnLineIsTabLine(id: string, tag: string, start: int, end: int, text: string)
    ensures AnnLine(id, tag, start, end, text) == TabLine(id, LabelRanges(tag, start, end), text)
  {
  }

  /** The general form of `AnnLineFields`, for any tab-free middle field. */
  lemma TabLineFields(pad: string, id: string, mid: string, text: string, eol: string)
    requires AllSpace(pad) && AllSpace(eol)
    requires |id| > 0 && !IsSpace(id[0]) && '\t' !in id
    requires GoodText(text) && '\t' !in mid
    ensures var line := TabLine(id, mid, text);
            && Strip(pad + line + eol) == line
            && SplitOn(line, '\t') == [id, mid, text]
  {
    TabLineStrips(pad, id, mid, text, eol);
    TabLineSplits(id, mid, text);
  }

  lemma TabLineStrips(pad: string, id: string, mid: string, text: string, eol: string)
    requires AllSpace(pad) && AllSpace(eol)
    requires |id| > 0 && !IsSpace(id[0]) && GoodText(text)
    ensures Strip(pad + TabLine(id, mid, text) + eol) == TabLine(id, mid, text)
  {
    var line := TabLine(id, mid, text);
    assert line == id + ("\t" + mid + "\t" + text);
    assert line[0] == id[0];
    assert line == (id + "\t" + mid + "\t") + text;
    assert line[|line| - 1] == text[|text| - 1];
    StripPadded(pad, line, eol);
  }

  lemma TabLineSplits(id: string, mid: string, text: string)
    requires '\t' !in id && '\t' !in mid && '\t' !in text
    ensures SplitOn(TabLine(id, mid, text), '\t') == [id, mid, text]
  {
    assert TabLine(id, mid, text) == Join([id, mid, text], "\t") by {
      assert [id, mid, text][1..] == [mid, text];
      assert [mid, text][1..] == [text];
      assert Join([mid, text], "\t") == mid + "\t" + text;
      assert Join([id, mid, text], "\t") == id + "\t" + (mid + "\t" + text);
    }
    SplitOnJoin([id, mid, text], '\t');
  }
}

=== FILE: ints.dfy ===
/**
 * Python's `int(s)` (base 10) on strings and `str(i)` on integers.  The
 * annotation readers use `int` to read character offsets and treat its
 * ValueError as "drop this line".
 */
module Ints {
  import opened Results
  import opened Text

  predicate IsDigit(c: char) {
    '0' <= c <= '9'
  }

  function DigitValue(c: char): nat
    requires IsDigit(c)
  {
    c as int - '0' as int
  }

  function DigitChar(d: nat): (c: char)
    requires d < 10
    ensures IsDigit(c) && DigitValue(c) == d
  {
    ('0' as int + d) as char
  }

  /** The digits of a base-10 literal: ASCII digits, where a single
      underscore may separate two digits. */
  predicate IsDecimalBody(s: string) {
    && |s| > 0 && IsDigit(s[0]) && IsDigit(s[|s| - 1])
    && (forall k :: 0 <= k < |s| ==> IsDigit(s[k]) || s[k] == '_')
    && (forall k :: 0 <= k < |s| - 1 && s[k] == '_' ==> s[k + 1] != '_')
  }

  /** The number the digits of `s` spell, read left to right, underscores
      skipped. */
  function DecimalValue(s: string): nat
    requires forall k :: 0 <= k < |s| ==> IsDigit(s[k]) || s[k] == '_'
    decreases |s|
  {
    if |s| == 0 then 0
    else if s[|s| - 1] == '_' then DecimalValue(s[..|s| - 1])
    else 10 * DecimalValue(s[..|s| - 1]) + DigitValue(s[|s| - 1])
  }

  /** The information separators 0x1C..0x1F.  `str.strip` treats them as
      whitespace; `int` on an ASCII string skips only tab..CR and the space
      around the literal, so one of them anywhere makes it raise. */
  predicate IsSeparatorChar(c: char) {
    28 <= c as int <= 31
  }

  /** An underscore between digits adds nothing to the value:
      `int("1_000") == int("1000")`. */
  lemma {:induction false} UnderscoreIgnored(a: string, b: string)
    requires forall k :: 0 <= k < |a| ==> IsDigit(a[k]) || a[k] == '_'
    requires forall k :: 0 <= k < |b| ==> IsDigit(b[k]) || b[k] == '_'
    ensures DecimalValue(a + "_" + b) == DecimalValue(a + b)
    decreases |b|
  {
    var s, t := a + "_" + b, a + b;
    if |b| == 0 {
      assert s[..|s| - 1] == a && t == a;
    } else {
      var n := |b| - 1;
      assert s[..|s| - 1] == a + "_" + b[..n] && s[|s| - 1] == b[n];
      assert t[..|t| - 1] == a + b[..n] && t[|t| - 1] == b[n];
      UnderscoreIgnored(a, b[..n]);
    }
  }

  /** `int(s)`: whitespace around the literal is ignored, one optional sign,
      then the digits.  `None` stands for the ValueError. */
  function ParseInt(s: string): (r: Option<int>)
    ensures r.Some? ==> exists k :: 0 <= k < |s| && IsDigit(s[k])
    ensures (exists k :: 0 <= k < |s| && IsSeparatorChar(s[k])) ==> r == None
  {
    if exists k :: 0 <= k < |s| && IsSeparatorChar(s[k]) then None
    else
      var t := Strip(s);
      if |t| > 0 && (t[0] == '+' || t[0] == '-') then
        var body := t[1..];
        if IsDecimalBody(body) then
          assert body[0] in s;
          var v: int := DecimalValue(body);
          Some(if t[0] == '-' then -v else v)
        else None
      else if IsDecimalBody(t) then
        assert t[0] in s;
        Some(DecimalValue(t))
      else None
  }

  /** `str(n)` for a non-negative integer: its digits, most significant
      first, with no leading zero. */
  function NatToString(n: nat): (s: string)
    ensures IsDecimalBody(s) && DecimalValue(s) == n
    ensures forall k :: 0 <= k < |s| ==> IsDigit(s[k])
    ensures |s| > 1 ==> s[0] != '0'
    decreases n
  {
    if n < 10 then [DigitChar(n)]
    else
      var prefix := NatToString(n / 10);
      var s := prefix + [DigitChar(n % 10)];
      assert s[..|s| - 1] == prefix;
      s
  }

  /** `str(i)`. */
  function IntToString(i: int): string
  {
    if i < 0 then "-" + NatToString(-i) else NatToString(i)
  }

  /** Reading back what `str` wrote gives the same integer. */
  lemma ParseIntToString(i: int)
    ensures ParseInt(IntToString(i)) == Some(i)
  {
    if i < 0 {
      ParseNegative(-i);
    } else {
      ParseNatural(i);
    }
  }

  lemma ParseNatural(n: nat)
    ensures ParseInt(NatToString(n)) == Some(n)
  {
    var d := NatToString(n);
    assert !IsSpace(d[0]) && !IsSpace(d[|d| - 1]);
    StripUnchanged(d);
  }

  lemma ParseNegative(n: nat)
    ensures ParseInt("-" + NatToString(n)) == Some(-(n as int))
  {
    var d := NatToString(n);
    var s := "-" + d;
    SignedDigits(d);
    assert s[|s| - 1] == d[|d| - 1];
    assert !IsSpace(s[0]) && !IsSpace(s[|s| - 1]);
    StripUnchanged(s);
    assert s[1..] == d;
  }

  /** A minus sign followed by digits holds no information separator. */
  lemma SignedDigits(d: string)
    requires forall k :: 0 <= k < |d| ==> IsDigit(d[k])
    ensures forall k :: 0 <= k < |"-" + d| ==> !IsSeparatorChar(("-" + d)[k])
  {
    var s := "-" + d;
    forall k | 0 <= k < |s|
      ensures !IsSeparatorChar(s[k])
    {
      if k > 0 {
        assert s[k] == d[k - 1];
      }
    }
  }

  /** The characters `int` skips around a literal: tab..CR and the space. */
  predicate IsIntSpace(c: char) {
    9 <= c as int <= 13 || c == ' '
  }

  /** A literal with an optional sign, padded with the whitespace `int`
      skips, reads as the value of its digits, negated after a minus:
      `int(" -1_000\n") == -1000`. */
  lemma ParseIntLiteral(pre: string, sign: string, digits: string, post: string)
    requires forall k :: 0 <= k < |pre| ==> IsIntSpace(pre[k])
    requires forall k :: 0 <= k < |post| ==> IsIntSpace(post[k])
    requires sign == "" || sign == "+" || sign == "-"
    requires IsDecimalBody(digits)
    ensures ParseInt(pre + sign + digits + post)
            == Some(if sign == "-" then -(DecimalValue(digits) as int) else DecimalValue(digits))
  {
    var m := sign + digits;
    var s := pre + m + post;
    assert pre + sign + digits + post == s;
    NoSeparatorInLiteral(pre, sign, digits, post);
    assert Strip(s) == m by {
      assert m[0] == (if sign == "" then digits[0] else sign[0]);
      assert m[|m| - 1] == digits[|digits| - 1];
      StripPadded(pre, m, post);
    }
    ParseSigned(s, sign, digits);
  }

  /** A string without information separators that strips to an optionally
      signed literal. */
  lemma ParseSigned(s: string, sign: string, digits: string)
    requires forall k :: 0 <= k < |s| ==> !IsSeparatorChar(s[k])
    requires sign == "" || sign == "+" || sign == "-"
    requires IsDecimalBody(digits) && Strip(s) == sign + digits
    ensures ParseInt(s) == Some(if sign == "-" then -(DecimalValue(digits) as int) else DecimalValue(digits))
  {
    var t := sign + digits;
    if sign == "" {
      assert t == digits;
    } else {
      assert t[0] == sign[0] && t[1..] == digits;
    }
  }

  lemma NoSeparatorInLiteral(pre: string, sign: string, digits: string, post: string)
    requires forall k :: 0 <= k < |pre| ==> IsIntSpace(pre[k])
    requires forall k :: 0 <= k < |post| ==> IsIntSpace(post[k])
    requires sign == "" || sign == "+" || sign == "-"
    requires IsDecimalBody(digits)
    ensures forall k :: 0 <= k < |pre + (sign + digits) + post| ==> !IsSeparatorChar((pre + (sign + digits) + post)[k])
  {
    var m := sign + digits;
    var s := pre + m + post;
    forall k | 0 <= k < |s|
      ensures !IsSeparatorChar(s[k])
    {
      if k < |pre| {
        assert s[k] == pre[k];
      } else if k < |pre| + |m| {
        assert s[k] == m[k - |pre|];
        if k - |pre| >= |sign| {
          assert m[k - |pre|] == digits[k - |pre| - |sign|];
        }
      } else {
        assert s[k] == post[k - |pre| - |m|];
      }
    }
  }

  /** A visible character that is neither a digit, an underscore nor a sign
      makes `int` raise, wherever it sits: `int("20;25")` is an error. */
  lemma ParseIntRejects(s: string, k: nat)
    requires k < |s|
    requires !IsSpace(s[k]) && !IsDigit(s[k]) && s[k] != '_' && s[k] != '+' && s[k] != '-'
    ensures ParseInt(s) == None
  {
    var t := Strip(s);
    var i := LeadingSpaces(s);
    assert i <= k < i + |t|;
    assert t[k - i] == s[k];
    if |t| > 0 && (t[0] == '+' || t[0] == '-') {
      assert t[1..][k - i - 1] == s[k];
    }
  }
}

=== FILE: json.dfy ===
/** A value as Python's `json.load` returns it. */
module Json {

  datatype Json =
    | JNull
    | JBool(b: bool)
    | JNumber(n: real)
    | JString(s: string)
    | JArray(items: seq<Json>)
    | JObject(members: map<string, Json>)
}

=== FILE: results.dfy ===
/**
 * Option and Result values used throughout the model.  `Result` stands for a
 * Python call that either returns a value or raises an exception; it supports
 * Dafny's `:-` so that an exception propagates the way Python's does.
 */
module Results {

  datatype Option<+T> = None | Some(value: T)

  datatype Result<+T, +E> = Ok(value: T) | Err(error: E) {

    predicate IsFailure() {
      Err?
    }

    function PropagateFailure<U>(): Result<U, E>
      requires Err?
    {
      Err(error)
    }

    function Extract(): T
      requires Ok?
    {
      value
    }
  }
}

=== FILE: scoring.dfy ===
/**
 * Precision, recall and F1 from true-positive, false-positive and
 * false-negative counts, each guarded so that an empty denominator gives 0.
 * The ratios are exact reals; floating-point rounding is not modelled.
 */
module Scoring {

  datatype Metrics = Metrics(precision: real, recall: real, f1: real)

  /** The per-file record: the three counts and the metrics derived from them. */
  datatype Scores = Scores(tp: nat, fp: nat, fn: nat, metrics: Metrics)

  function Min(a: real, b: real): real { if a <= b then a else b }
  function Max(a: real, b: real): real { if a <= b then b else a }

  /** `hits / (hits + misses)`, or 0 when there is nothing to divide by: the
      shape shared by precision (misses = false positives) and recall
      (misses = false negatives). */
  function Ratio(hits: nat, misses: nat): (q: real)
    ensures 0.0 <= q <= 1.0
    ensures q * (hits + misses) as real == hits as real
    ensures q == 0.0 <==> hits == 0
    ensures q == 1.0 <==> hits > 0 && misses == 0
  {
    if hits + misses > 0 then
      var q := hits as real / (hits + misses) as real;
      assert q * (hits + misses) as real == hits as real;
      q
    else 0.0
  }

  function Precision(tp: nat, fp: nat): real { Ratio(tp, fp) }

  function Recall(tp: nat, fn: nat): real { Ratio(tp, fn) }

  lemma MulLeCancel(a: real, b: real, c: real)
    requires c > 0.0 && a * c <= b * c
    ensures a <= b
  {
  }

  lemma MulLtCancel(a: real, b: real, c: real)
    requires c > 0.0 && a * c < b * c
    ensures a < b
  {
  }

  lemma MulNonneg(a: real, b: real)
    requires a >= 0.0 && b >= 0.0
    ensures a * b >= 0.0
  {
  }

  /** The harmonic mean of precision and recall, or 0 when both are 0. */
  function F1(p: real, r: real): (f: real)
    requires 0.0 <= p <= 1.0 && 0.0 <= r <= 1.0
    ensures Min(p, r) <= f <= Max(p, r)
    ensures 0.0 <= f <= 1.0
    ensures f == 0.0 <==> p == 0.0 || r == 0.0
    ensures f == 1.0 <==> p == 1.0 && r == 1.0
  {
    if p + r > 0.0 then
      var f := 2.0 * p * r / (p + r);
      assert f * (p + r) == 2.0 * p * r;
      HarmonicBetween(p, r, f);
      f
    else 0.0
  }

  lemma HarmonicBetween(p: real, r: real, f: real)
    requires 0.0 <= p <= 1.0 && 0.0 <= r <= 1.0 && p + r > 0.0
    requires f * (p + r) == 2.0 * p * r
    ensures Min(p, r) <= f <= Max(p, r)
    ensures f == 0.0 <==> p == 0.0 || r == 0.0
    ensures f == 1.0 <==> p == 1.0 && r == 1.0
  {
    if f == 1.0 {
      assert 2.0 * p * r == p + r;
      assert (1.0 - p) * r + (1.0 - r) * p == 0.0;
      MulNonneg(1.0 - p, r);
      MulNonneg(1.0 - r, p);
    }
    if p <= r {
      HarmonicAboveMin(p, r, f);
      HarmonicBelowMax(p, r, f);
    } else {
      HarmonicAboveMin(r, p, f);
      HarmonicBelowMax(r, p, f);
    }
  }

  lemma HarmonicAboveMin(lo: real, hi: real, f: real)
    requires 0.0 <= lo <= hi && lo + hi > 0.0
    requires f * (lo + hi) == 2.0 * lo * hi
    ensures lo <= f
  {
    var c := lo + hi;
    MulNonneg(lo, hi - lo);
    assert lo * c <= f * c;
    MulLeCancel(lo, f, c);
  }

  lemma HarmonicBelowMax(lo: real, hi: real, f: real)
    requires 0.0 <= lo <= hi && lo + hi > 0.0
    requires f * (lo + hi) == 2.0 * lo * hi
    ensures f <= hi
  {
    var c := lo + hi;
    MulNonneg(hi, hi - lo);
    assert f * c <= hi * c;
    MulLeCancel(f, hi, c);
  }

  /** The metrics of one evaluation, from its three counts. */
  function MetricsOf(tp: nat, fp: nat, fn: nat): (m: Metrics)
    ensures 0.0 <= m.precision <= 1.0 && 0.0 <= m.recall <= 1.0 && 0.0 <= m.f1 <= 1.0
    ensures tp + fp == 0 ==> m.precision == 0.0
    ensures tp + fn == 0 ==> m.recall == 0.0
    ensures tp == 0 ==> m == Metrics(0.0, 0.0, 0.0)
    ensures tp > 0 && fp == 0 && fn == 0 ==> m == Metrics(1.0, 1.0, 1.0)
  {
    var p := Precision(tp, fp);
    var r := Recall(tp, fn);
    Metrics(p, r, F1(p, r))
  }

  /** For a non-zero true-positive count F1 is the closed form
      2·tp / (2·tp + fp + fn). */
  lemma F1ClosedForm(tp: nat, fp: nat, fn: nat)
    requires tp > 0
    ensures MetricsOf(tp, fp, fn).f1 == (2 * tp) as real / (2 * tp + fp + fn) as real
  {
    var p := Precision(tp, fp);
    var r := Recall(tp, fn);
    var f := F1(p, r);
    var t, a, b := tp as real, (tp + fp) as real, (tp + fn) as real;
    assert p * a == t && r * b == t;
    assert f * (p + r) == 2.0 * p * r;
    HarmonicOfRatios(p, r, f, t, a, b);
  }

  /** The algebra behind `F1ClosedForm`: with p = t/a and r = t/b, the
      harmonic mean f of p and r satisfies f·(a + b) = 2·t. */
  lemma HarmonicOfRatios(p: real, r: real, f: real, t: real, a: real, b: real)
    requires t > 0.0 && p * a == t && r * b == t
    requires f * (p + r) == 2.0 * p * r
    ensures f * (a + b) == 2.0 * t
  {
    assert (p + r) * a * b == t * (a + b) by {
      assert (p + r) * a * b == (p * a) * b + (r * b) * a;
    }
    assert f * t * (a + b) == 2.0 * t * t by {
      calc {
        f * t * (a + b);
        f * ((p + r) * a * b);
        (f * (p + r)) * a * b;
        2.0 * (p * a) * (r * b);
      }
    }
  }

  /** Exchanging false positives and false negatives exchanges precision and
      recall and leaves F1 alone. */
  lemma SwapErrors(tp: nat, fp: nat, fn: nat)
    ensures var m, s := MetricsOf(tp, fp, fn), MetricsOf(tp, fn, fp);
            s.precision == m.recall && s.recall == m.precision && s.f1 == m.f1
  {
    F1Symmetric(Precision(tp, fp), Recall(tp, fn));
  }

  lemma F1Symmetric(p: real, r: real)
    requires 0.0 <= p <= 1.0 && 0.0 <= r <= 1.0
    ensures F1(p, r) == F1(r, p)
  {
    assert 2.0 * p * r == 2.0 * r * p;
  }

  /** With at least one hit, unequal false-positive and false-negative
      counts make precision and recall differ. */
  lemma UnequalErrorsSplitPrecisionRecall(tp: nat, fp: nat, fn: nat)
    requires tp > 0 && fp != fn
    ensures MetricsOf(tp, fp, fn).precision != MetricsOf(tp, fp, fn).recall
  {
    var p, r := Precision(tp, fp), Recall(tp, fn);
    var a, b := (tp + fp) as real, (tp + fn) as real;
    assert p * a == r * b;
    if fp < fn {
      StrictlyLarger(p, r, a, b);
    } else {
      StrictlyLarger(r, p, b, a);
    }
  }

  /** Equal products with a smaller second factor force a larger first one. */
  lemma StrictlyLarger(x: real, y: real, a: real, b: real)
    requires 0.0 < a < b && y > 0.0 && x * a == y * b
    ensures x > y
  {
    assert y * a < y * b;
    MulLtCancel(y, x, a);
  }

  /** Scores of a predicted set against a gold set: hits are the common
      members, false positives the predicted-only ones, false negatives the
      gold-only ones. */
  function ScoreSets<T>(gold: set<T>, pred: set<T>): (s: Scores)
    ensures s.tp + s.fp == |pred| && s.tp + s.fn == |gold|
    ensures s.tp <= |gold| && s.tp <= |pred|
    ensures s.metrics.precision == 1.0 <==> pred != {} && pred <= gold
    ensures s.metrics.recall == 1.0 <==> gold != {} && gold <= pred
    ensures s.fp == 0 && s.fn == 0 <==> gold == pred
    ensures s.tp + s.fp + s.fn == |gold + pred|
    ensures s.metrics == MetricsOf(s.tp, s.fp, s.fn)
  {
    var tp, fp, fn := |gold * pred|, |pred - gold|, |gold - pred|;
    SetCounts(gold, pred);
    Scores(tp, fp, fn, MetricsOf(tp, fp, fn))
  }

  /** How the sizes of the intersection and the two differences add up. */
  lemma SetCounts<T>(gold: set<T>, pred: set<T>)
    ensures |gold * pred| + |pred - gold| == |pred|
    ensures |gold * pred| + |gold - pred| == |gold|
    ensures |gold * pred| + |pred - gold| + |gold - pred| == |gold + pred|
    ensures |pred - gold| == 0 <==> pred <= gold
    ensures |gold - pred| == 0 <==> gold <= pred
  {
    assert pred == (gold * pred) + (pred - gold);
    assert gold == (gold * pred) + (gold - pred);
    assert gold + pred == pred + (gold - pred) && pred * (gold - pred) == {};
    if |pred - gold| == 0 {
      assert pred - gold == {};
    }
    if |gold - pred| == 0 {
      assert gold - pred == {};
    }
  }
}

=== FILE: step3_eval.dfy ===
/**
 * Scoring predicted spans against ground-truth spans, as
 * `utils/step3_evaluate_predictions.py` does it: read (label, text) pairs
 * from the annotation lines, map decoded prediction items to pairs,
 * normalise case and whitespace on both sides, and compare the two sets.
 *
 * An exception the Python code raises becomes an `Err` result; which line or
 * item raised it is the first one, as in the original loop.
 */
module Step3Eval {
  import opened Results
  import opened Text
  import opened Json
  import opened Scoring
  import opened AnnFormat

  /** A span compared by label (`tag`) and literal text. */
  datatype Span = Span(tag: string, text: string)

  datatype EvalError =
    | LabelFieldEmpty(line: nat)  // IndexError from `parts[1].split()[0]`
    | MissingKey(key: string)     // KeyError on a prediction object
    | NotIterable                 // TypeError: the decoded JSON is a scalar
    | NotAString                  // AttributeError: `.strip()` on a non-string

  // ---------------------------------------------------------------------------
  // Ground truth

  /** What one line of the ground-truth file contributes. */
  datatype GroundTruthLine = Skipped | Accepted(span: Span) | NoLabel

  /** One iteration of the reading loop. The comment test looks at the raw
      line, before stripping; everything else at the stripped line. */
  function ParseGroundTruthLine(line: string): GroundTruthLine
  {
    if (|line| > 0 && line[0] == '#') || Strip(line) == [] then Skipped
    else
      var parts := SplitOn(Strip(line), '\t');
      if |parts| < 3 then Skipped
      else
        var labelInfo := Words(parts[1]);
        if |labelInfo| == 0 then NoLabel
        else Accepted(Span(labelInfo[0], Strip(parts[2])))
  }

  /** The skip rules: a raw `#` line, a blank line, or a line with fewer
      than two tabs once stripped (fewer than three fields) gives nothing. */
  lemma GroundTruthSkipRules(line: string)
    requires || (|line| > 0 && line[0] == '#')
             || AllSpace(line)
             || multiset(Strip(line))['\t'] < 2
    ensures ParseGroundTruthLine(line) == Skipped
  {
    StripEmptyIffAllSpace(line);
  }

  /** The label lookup fails exactly on an otherwise usable line whose
      second field is all whitespace. */
  lemma GroundTruthLabelFailure(line: string)
    ensures ParseGroundTruthLine(line).NoLabel? <==>
            && !(|line| > 0 && line[0] == '#')
            && !AllSpace(line)
            && multiset(Strip(line))['\t'] >= 2
            && AllSpace(SplitOn(Strip(line), '\t')[1])
  {
    StripEmptyIffAllSpace(line);
    if multiset(Strip(line))['\t'] >= 2 {
      WordsEmptyIffAllSpace(SplitOn(Strip(line), '\t')[1]);
    }
  }

  /** A well-formed annotation line, possibly indented and terminated,
      contributes its label and its stripped text.  Only a `#` in the very
      first column makes a comment: an indented `#` line is read as data. */
  lemma GroundTruthReadsAnnLine(pad: string, id: string, tag: string, start: int, end: int,
                                text: string, eol: string)
    requires AllSpace(pad) && AllSpace(eol)
    requires |id| > 0 && !IsSpace(id[0]) && '\t' !in id
    requires |pad| > 0 || id[0] != '#'
    requires IsWord(tag) && GoodText(text)
    ensures ParseGroundTruthLine(pad + AnnLine(id, tag, start, end, text) + eol)
            == Accepted(Span(tag, Strip(text)))
  {
    var mid := LabelRanges(tag, start, end);
    assert '\t' !in mid && Words(mid) != [] && Words(mid)[0] == tag by {
      LabelRangesNoTab(tag, start, end);
      LabelRangesWords(tag, start, end);
    }
    AnnLineIsTabLine(id, tag, start, end, text);
    GroundTruthReadsTabLine(pad, id, mid, text, eol);
  }

  /** `GroundTruthReadsAnnLine` for any tab-free middle field: the label is
      its first word. */
  lemma GroundTruthReadsTabLine(pad: string, id: string, mid: string, text: string, eol: string)
    requires AllSpace(pad) && AllSpace(eol)
    requires |id| > 0 && !IsSpace(id[0]) && '\t' !in id
    requires |pad| > 0 || id[0] != '#'
    requires '\t' !in mid && Words(mid) != [] && GoodText(text)
    ensures ParseGroundTruthLine(pad + TabLine(id, mid, text) + eol)
            == Accepted(Span(Words(mid)[0], Strip(text)))
  {
    var line := TabLine(id, mid, text);
    TabLineFields(pad, id, mid, text, eol);
    assert line[0] == id[0];
    NotFirstColumnComment(pad, line, eol);
    ParseThreeFields(pad + line + eol, id, mid, text);
  }

  /** An indented line, or one that does not start with `#`, is not a
      first-column comment. */
  lemma NotFirstColumnComment(pad: string, line: string, eol: string)
    requires AllSpace(pad) && |line| > 0 && (|pad| > 0 || line[0] != '#')
    ensures (pad + line + eol)[0] != '#'
  {
    var raw := pad + line + eol;
    if |pad| > 0 {
      assert raw[0] == pad[0];
    } else {
      assert raw[0] == line[0];
    }
  }

  /** A line that is not a first-column comment and strips to three or more
      fields contributes the first word of the second and the stripped third;
      any further fields are ignored. */
  lemma ParseGroundTruthFields(raw: string)
    requires |raw| > 0 && raw[0] != '#'
    requires var parts := SplitOn(Strip(raw), '\t'); |parts| >= 3 && Words(parts[1]) != []
    ensures var parts := SplitOn(Strip(raw), '\t');
            ParseGroundTruthLine(raw) == Accepted(Span(Words(parts[1])[0], Strip(parts[2])))
  {
    StripEmptyIffAllSpace(raw);
  }

  /** `ParseGroundTruthFields` for a line whose fields are given. */
  lemma ParseThreeFields(raw: string, a: string, b: string, c: string)
    requires |raw| > 0 && raw[0] != '#'
    requires SplitOn(Strip(raw), '\t') == [a, b, c] && Words(b) != []
    ensures ParseGroundTruthLine(raw) == Accepted(Span(Words(b)[0], Strip(c)))
  {
    ParseGroundTruthFields(raw);
  }

  /** `read_ground_truth_spans`: each line is parsed on its own, and the
      outcomes are collected in file order. */
  function ReadGroundTruthSpans(lines: seq<string>): Result<set<Span>, EvalError> {
    CollectSpans(LineOutcomes(lines))
  }

  function LineOutcomes(lines: seq<string>): (outcomes: seq<GroundTruthLine>)
    ensures |outcomes| == |lines|
    ensures forall i :: 0 <= i < |lines| ==> outcomes[i] == ParseGroundTruthLine(lines[i])
  {
    seq(|lines|, i requires 0 <= i < |lines| => ParseGroundTruthLine(lines[i]))
  }

  /** The loop's accumulation: add each accepted span to the set, stop at the
      first line whose label lookup fails. */
  function CollectSpans(outcomes: seq<GroundTruthLine>): (r: Result<set<Span>, EvalError>)
    ensures r.Err? ==> r.error.LabelFieldEmpty? && r.error.line < |outcomes|
    decreases |outcomes|
  {
    if |outcomes| == 0 then Ok({})
    else
      var n := |outcomes| - 1;
      match CollectSpans(outcomes[..n])
      case Err(e) => Err(e)
      case Ok(spans) =>
        match outcomes[n]
        case Skipped => Ok(spans)
        case Accepted(sp) => Ok(spans + {sp})
        case NoLabel => Err(LabelFieldEmpty(n))
  }

  /** The spans of the accepted outcomes, as a set comprehension. */
  function AcceptedSpans(outcomes: seq<GroundTruthLine>): set<Span> {
    set i | 0 <= i < |outcomes| && outcomes[i].Accepted? :: outcomes[i].span
  }

  /** Collecting succeeds exactly when no outcome is a label failure, and
      then yields the spans of the accepted outcomes. */
  lemma {:induction false} CollectSpansOk(outcomes: seq<GroundTruthLine>)
    ensures CollectSpans(outcomes).Ok? <==> forall i :: 0 <= i < |outcomes| ==> !outcomes[i].NoLabel?
    ensures CollectSpans(outcomes).Ok? ==> CollectSpans(outcomes).value == AcceptedSpans(outcomes)
    decreases |outcomes|
  {
    if |outcomes| > 0 {
      var n := |outcomes| - 1;
      var init := outcomes[..n];
      assert forall i :: 0 <= i < n ==> init[i] == outcomes[i];
      CollectSpansOk(init);
      if CollectSpans(outcomes).Ok? {
        if outcomes[n].Accepted? {
          assert AcceptedSpans(outcomes) == AcceptedSpans(init) + {outcomes[n].span};
        } else {
          assert AcceptedSpans(outcomes) == AcceptedSpans(init);
        }
      }
    }
  }

  /** A failed collection names the first label failure. */
  lemma {:induction false} CollectSpansFirstFailure(outcomes: seq<GroundTruthLine>)
    requires CollectSpans(outcomes).Err?
    ensures var k := CollectSpans(outcomes).error.line;
            outcomes[k].NoLabel? && forall i :: 0 <= i < k ==> !outcomes[i].NoLabel?
    decreases |outcomes|
  {
    var n := |outcomes| - 1;
    var init := outcomes[..n];
    assert forall i :: 0 <= i < n ==> init[i] == outcomes[i];
    CollectSpansOk(init);
    if CollectSpans(init).Err? {
      CollectSpansFirstFailure(init);
    }
  }

  /** Reading succeeds exactly when no line fails the label lookup; it then
      yields the set of spans of the accepted lines, and otherwise names the
      first failing line. */
  lemma ReadGroundTruthSpansSpec(lines: seq<string>)
    ensures var r := ReadGroundTruthSpans(lines);
            && (r.Ok? <==> forall i :: 0 <= i < |lines| ==> !ParseGroundTruthLine(lines[i]).NoLabel?)
            && (r.Ok? ==> forall sp :: sp in r.value <==>
                  exists i :: 0 <= i < |lines| && ParseGroundTruthLine(lines[i]) == Accepted(sp))
            && (r.Err? ==> && r.error.LabelFieldEmpty? && r.error.line < |lines|
                           && ParseGroundTruthLine(lines[r.error.line]).NoLabel?
                           && forall i :: 0 <= i < r.error.line ==> !ParseGroundTruthLine(lines[i]).NoLabel?)
  {
    var outcomes := LineOutcomes(lines);
    CollectSpansOk(outcomes);
    if CollectSpans(outcomes).Err? {
      CollectSpansFirstFailure(outcomes);
    } else {
      forall sp | sp in CollectSpans(outcomes).value
        ensures exists i :: 0 <= i < |lines| && outcomes[i] == Accepted(sp)
      {
        var i :| 0 <= i < |outcomes| && outcomes[i].Accepted? && outcomes[i].span == sp;
        assert outcomes[i] == Accepted(sp);
      }
    }
  }

  /** Repeating a line changes nothing: the spans form a set. */
  lemma GroundTruthDuplicateLine(lines: seq<string>, j: nat)
    requires j < |lines|
    ensures ReadGroundTruthSpans(lines + [lines[j]]).Ok? <==> ReadGroundTruthSpans(lines).Ok?
    ensures ReadGroundTruthSpans(lines).Ok? ==>
              ReadGroundTruthSpans(lines + [lines[j]]) == ReadGroundTruthSpans(lines)
  {
    LineOutcomesAppend(lines, [lines[j]]);
    var a := LineOutcomes(lines);
    assert LineOutcomes([lines[j]]) == [a[j]];
    CollectSpansDuplicate(a, j);
  }

  lemma LineOutcomesAppend(lines: seq<string>, more: seq<string>)
    ensures LineOutcomes(lines + more) == LineOutcomes(lines) + LineOutcomes(more)
  {
    var all := lines + more;
    assert forall i :: 0 <= i < |lines| ==> all[i] == lines[i];
    assert forall i :: 0 <= i < |more| ==> all[|lines| + i] == more[i];
  }

  lemma CollectSpansDuplicate(a: seq<GroundTruthLine>, j: nat)
    requires j < |a|
    ensures CollectSpans(a + [a[j]]).Ok? <==> CollectSpans(a).Ok?
    ensures CollectSpans(a).Ok? ==> CollectSpans(a + [a[j]]) == CollectSpans(a)
  {
    var b := a + [a[j]];
    assert b[..|a|] == a && b[|a|] == a[j];
    var r := CollectSpans(a);
    if r.Ok? {
      CollectSpansOk(a);
      assert !a[j].NoLabel?;
      if a[j].Accepted? {
        assert a[j].span in r.value;
        assert CollectSpans(b) == Ok(r.value + {a[j].span});
        assert r.value + {a[j].span} == r.value;
      } else {
        assert CollectSpans(b) == r;
      }
    } else {
      assert CollectSpans(b) == r;
    }
  }

  // ---------------------------------------------------------------------------
  // Predictions

  /** A predicted (label, text) pair before normalisation; its parts are
      whatever JSON values the item held. */
  datatype RawSpan = RawSpan(tag: Json, text: Json)

  /** One item of the decoded prediction list: an object gives its "label"
      and "text" members, an array of two or more its first and last
      elements, anything else is dropped. */
  function PredictionItem(item: Json): (r: Result<Option<RawSpan>, EvalError>)
    ensures r.Err? <==> item.JObject? && ("label" !in item.members || "text" !in item.members)
    ensures r == Ok(None) <==> !item.JObject? && !(item.JArray? && |item.items| >= 2)
    ensures item.JObject? && r.Ok? ==>
              r == Ok(Some(RawSpan(item.members["label"], item.members["text"])))
    ensures item.JArray? && |item.items| >= 2 ==>
              r == Ok(Some(RawSpan(item.items[0], item.items[|item.items| - 1])))
  {
    match item
    case JObject(m) =>
      if "label" !in m then Err(MissingKey("label"))
      else if "text" !in m then Err(MissingKey("text"))
      else Ok(Some(RawSpan(m["label"], m["text"])))
    case JArray(xs) =>
      if |xs| >= 2 then Ok(Some(RawSpan(xs[0], xs[|xs| - 1]))) else Ok(None)
    case _ => Ok(None)
  }

  /** The mapping loop of `load_predicted_spans` over a list of items. */
  function LoadItems(items: seq<Json>): (r: Result<seq<RawSpan>, EvalError>)
    ensures r.Ok? ==> |r.value| <= |items|
    ensures r.Err? ==> r.error.MissingKey?
    decreases |items|
  {
    if |items| == 0 then Ok([])
    else
      var n := |items| - 1;
      match LoadItems(items[..n])
      case Err(e) => Err(e)
      case Ok(spans) =>
        match PredictionItem(items[n])
        case Err(e) => Err(e)
        case Ok(None) => Ok(spans)
        case Ok(Some(sp)) => Ok(spans + [sp])
  }

  /** Loading fails exactly when some item is an object without "label" or
      "text". */
  lemma {:induction false} LoadItemsOk(items: seq<Json>)
    ensures LoadItems(items).Ok? <==> forall i :: 0 <= i < |items| ==> PredictionItem(items[i]).Ok?
    decreases |items|
  {
    if |items| > 0 {
      var n := |items| - 1;
      var init := items[..n];
      assert forall i :: 0 <= i < n ==> init[i] == items[i];
      LoadItemsOk(init);
    }
  }

  /** The items are mapped one by one: loading a concatenation is loading
      each part, the first error winning. */
  lemma {:induction false} LoadItemsAppend(a: seq<Json>, b: seq<Json>)
    ensures LoadItems(a).Err? ==> LoadItems(a + b) == LoadItems(a)
    ensures LoadItems(a).Ok? && LoadItems(b).Err? ==> LoadItems(a + b) == LoadItems(b)
    ensures LoadItems(a).Ok? && LoadItems(b).Ok? ==>
              LoadItems(a + b) == Ok(LoadItems(a).value + LoadItems(b).value)
    decreases |b|
  {
    if |b| == 0 {
      assert a + b == a;
      assert LoadItems(a).Ok? ==> LoadItems(a).value + [] == LoadItems(a).value;
    } else {
      var n := |b| - 1;
      assert (a + b)[..|a| + n] == a + b[..n];
      assert (a + b)[|a| + n] == b[n];
      LoadItemsAppend(a, b[..n]);
      if LoadItems(a).Ok? && LoadItems(b).Ok? {
        var x, y := LoadItems(a).value, LoadItems(b[..n]).value;
        match PredictionItem(b[n])
        case Ok(Some(sp)) => assert x + (y + [sp]) == (x + y) + [sp];
        case Ok(None) =>
        case Err(_) =>
      }
    }
  }

  /** A single item: an error stays an error, a dropped item adds nothing,
      and a pair is the whole output.  With `LoadItemsAppend` this fixes the
      output for every list. */
  lemma LoadItemsOne(item: Json)
    ensures LoadItems([item]) == match PredictionItem(item)
                                 case Err(e) => Err(e)
                                 case Ok(None) => Ok([])
                                 case Ok(Some(sp)) => Ok([sp])
  {
    assert [item][..0] == [];
    assert LoadItems([item][..0]) == Ok([]);
    match PredictionItem(item)
    case Ok(Some(sp)) => assert [] + [sp] == [sp];
    case Ok(None) =>
    case Err(_) =>
  }

  /** When every item yields a pair, the result lists the pairs in item
      order, duplicates included. */
  lemma {:induction false} LoadItemsKeepsOrder(items: seq<Json>)
    requires forall i :: 0 <= i < |items| ==> PredictionItem(items[i]).Ok? && PredictionItem(items[i]).value.Some?
    ensures LoadItems(items).Ok?
    ensures |LoadItems(items).value| == |items|
    ensures forall i :: 0 <= i < |items| ==> LoadItems(items).value[i] == PredictionItem(items[i]).value.value
    decreases |items|
  {
    if |items| > 0 {
      var n := |items| - 1;
      var init := items[..n];
      assert forall i :: 0 <= i < n ==> init[i] == items[i];
      LoadItemsKeepsOrder(init);
      var x := LoadItems(init).value;
      assert LoadItems(items).value == x + [PredictionItem(items[n]).value.value];
    }
  }

  /** `load_predicted_spans` after `json.load`: iterating an object yields its
      keys and iterating a string its characters, all strings and all
      dropped; a number, boolean or null cannot be iterated. */
  function LoadPredictedSpans(data: Json): (r: Result<seq<RawSpan>, EvalError>)
    ensures r.Err? && r.error == NotIterable <==> data.JNull? || data.JBool? || data.JNumber?
    ensures (data.JObject? || data.JString?) ==> r == Ok([])
    ensures data.JArray? ==> r == LoadItems(data.items)
  {
    match data
    case JArray(items) => LoadItems(items)
    case JObject(_) => Ok([])
    case JString(_) => Ok([])
    case _ => Err(NotIterable)
  }

  // ---------------------------------------------------------------------------
  // Normalisation

  /** A normalised label: no whitespace at either end, no upper case. */
  predicate IsNormalLabel(t: string) {
    (t == [] || (!IsSpace(t[0]) && !IsSpace(t[|t| - 1]))) && NoUpper(t)
  }

  /** A normalised text: lower case, and the single-space join of its own
      words. */
  predicate IsNormalText(t: string) {
    NoUpper(t) && Join(Words(t), " ") == t
  }

  predicate IsNormalSpan(sp: Span) {
    IsNormalLabel(sp.tag) && IsNormalText(sp.text)
  }

  /** `label.strip().lower()`. */
  function NormalizeLabel(tag: string): string {
    LowerStr(Strip(tag))
  }

  /** A normalised label is in normal form. */
  lemma NormalizedLabelIsNormal(tag: string)
    ensures IsNormalLabel(NormalizeLabel(tag))
  {
    var t := Strip(tag);
    var r := LowerStr(t);
    if r != [] {
      assert r[0] == Lower(t[0]);
      assert r[|r| - 1] == Lower(t[|t| - 1]);
    }
  }

  /** `" ".join(text.strip().lower().split())`. */
  function NormalizeText(text: string): string {
    Join(Words(LowerStr(Strip(text))), " ")
  }

  /** A normalised text is in normal form. */
  lemma NormalizedTextIsNormal(text: string)
    ensures IsNormalText(NormalizeText(text))
  {
    var low := LowerStr(Strip(text));
    var ws := Words(low);
    WordsNoUpper(low);
    JoinNoUpper(ws, " ");
    WordsOfJoin(ws);
  }

  /** Normalised text has no whitespace at either end, no whitespace but
      single spaces between words, and no upper-case letter. */
  lemma NormalTextShape(t: string)
    requires IsNormalText(t)
    ensures SingleSpaced(t) && NoUpper(t)
    ensures t == [] || (t[0] != ' ' && t[|t| - 1] != ' ')
    ensures forall k :: 0 <= k < |t| - 1 ==> !(t[k] == ' ' && t[k + 1] == ' ')
  {
    JoinWordsSingleSpaced(Words(t));
    forall k | 0 <= k < |t| - 1 && t[k] == ' '
      ensures t[k + 1] != ' '
    {
      assert IsSpace(t[k]);
    }
  }

  /** `normalize_span`. */
  function NormalizeSpan(sp: Span): Span {
    Span(NormalizeLabel(sp.tag), NormalizeText(sp.text))
  }

  /** A normalised span is in normal form. */
  lemma NormalizedSpanIsNormal(sp: Span)
    ensures IsNormalSpan(NormalizeSpan(sp))
  {
    NormalizedLabelIsNormal(sp.tag);
    NormalizedTextIsNormal(sp.text);
  }

  lemma NormalizeLabelFixedPoints(tag: string)
    ensures NormalizeLabel(tag) == tag <==> IsNormalLabel(tag)
  {
    if IsNormalLabel(tag) {
      StripUnchanged(tag);
      LowerStrIdempotent(tag);
    }
  }

  lemma NormalizeTextFixedPoints(text: string)
    ensures NormalizeText(text) == text <==> IsNormalText(text)
  {
    NormalizedTextIsNormal(text);
    if IsNormalText(text) {
      assert LowerStr(text) == text by {
        LowerStrIdempotent(text);
      }
      NormalizeTextJoinsWords(text);
    }
  }

  /** The spans normalisation leaves alone are exactly the normalised ones. */
  lemma NormalizeSpanFixedPoints(sp: Span)
    ensures NormalizeSpan(sp) == sp <==> IsNormalSpan(sp)
  {
    NormalizeLabelFixedPoints(sp.tag);
    NormalizeTextFixedPoints(sp.text);
  }

  /** Normalising twice is normalising once. */
  lemma NormalizeSpanIdempotent(sp: Span)
    ensures NormalizeSpan(NormalizeSpan(sp)) == NormalizeSpan(sp)
  {
    NormalizedSpanIsNormal(sp);
    NormalizeSpanFixedPoints(NormalizeSpan(sp));
  }

  /** Two texts normalise alike exactly when they have the same words once
      lower-cased: case and the amount of whitespace are all that is
      forgiven. */
  lemma NormalizeTextSameWords(a: string, b: string)
    ensures NormalizeText(a) == NormalizeText(b) <==> Words(LowerStr(a)) == Words(LowerStr(b))
  {
    NormalizedWords(a);
    NormalizedWords(b);
    NormalizeTextJoinsWords(a);
    NormalizeTextJoinsWords(b);
  }

  lemma NormalizedWords(a: string)
    ensures Words(NormalizeText(a)) == Words(LowerStr(a))
  {
    LowerStrip(a);
    WordsStrip(LowerStr(a));
    WordsOfJoin(Words(LowerStr(Strip(a))));
  }

  /** Label normalisation keeps the whitespace inside a label as it is,
      unlike text normalisation, which would leave a single space. */
  lemma NormalizeLabelKeepsInnerSpace(w1: string, gap: string, w2: string)
    requires IsWord(w1) && IsWord(w2) && AllSpace(gap)
    ensures NormalizeLabel(w1 + gap + w2) == LowerStr(w1) + gap + LowerStr(w2)
  {
    var s := w1 + gap + w2;
    assert s[0] == w1[0] && s[|s| - 1] == w2[|w2| - 1];
    StripUnchanged(s);
    LowerStrAppend(w1 + gap, w2);
    LowerStrAppend(w1, gap);
    assert LowerStr(gap) == gap;
  }

  /** Normalised text is the lower-cased words joined by single spaces. */
  lemma NormalizeTextJoinsWords(a: string)
    ensures NormalizeText(a) == Join(Words(LowerStr(a)), " ")
  {
    LowerStrip(a);
    WordsStrip(LowerStr(a));
  }

  /** Two words with any whitespace between them normalise to the two words
      lower-cased with one space between them. */
  lemma NormalizeTwoWords(w1: string, gap: string, w2: string)
    requires IsWord(w1) && IsWord(w2) && |gap| > 0 && AllSpace(gap)
    ensures NormalizeText(w1 + gap + w2) == LowerStr(w1) + " " + LowerStr(w2)
  {
    var l1, lg, l2 := LowerStr(w1), LowerStr(gap), LowerStr(w2);
    assert LowerStr(w1 + gap + w2) == l1 + lg + l2 by {
      LowerStrAppend(w1 + gap, w2);
      LowerStrAppend(w1, gap);
    }
    LowerWord(w1);
    LowerWord(w2);
    assert AllSpace(lg);
    assert Words(l1 + lg + l2) == [l1, l2] by {
      WordsWordThenGap(l1, lg, l2);
      WordsOfWord(l2);
    }
    NormalizeTextJoinsWords(w1 + gap + w2);
    assert [l1, l2][1..] == [l2];
  }

  // ---------------------------------------------------------------------------
  // Evaluation

  /** `set(normalize_span(s) for s in gt_spans)`. */
  function NormalizeSet(spans: set<Span>): set<Span> {
    set sp | sp in spans :: NormalizeSpan(sp)
  }

  /** Every member of a normalised set is a normal form, and every span of
      the input is represented by its normal form. */
  lemma NormalizeSetMembers(spans: set<Span>)
    ensures forall sp :: sp in NormalizeSet(spans) ==> IsNormalSpan(sp)
    ensures forall sp :: sp in spans ==> NormalizeSpan(sp) in NormalizeSet(spans)
    ensures forall sp :: sp in NormalizeSet(spans) ==> exists x :: x in spans && NormalizeSpan(x) == sp
  {
    forall sp | sp in NormalizeSet(spans)
      ensures IsNormalSpan(sp)
    {
      var x :| x in spans && NormalizeSpan(x) == sp;
      NormalizedSpanIsNormal(x);
    }
  }

  /** The (label, text) strings of a raw pair, when both are strings. */
  function AsSpan(raw: RawSpan): Option<Span> {
    if raw.tag.JString? && raw.text.JString? then Some(Span(raw.tag.s, raw.text.s)) else None
  }

  /** The (label, text) strings of the raw pairs, in order: fails on the
      first pair whose label or text is not a string, where Python's
      `.strip()` would raise. */
  function StringSpans(raw: seq<RawSpan>): (r: Result<seq<Span>, EvalError>)
    ensures r.Err? ==> r.error == NotAString
    decreases |raw|
  {
    if |raw| == 0 then Ok([])
    else
      var n := |raw| - 1;
      var spans :- StringSpans(raw[..n]);
      match AsSpan(raw[n])
      case Some(sp) => Ok(spans + [sp])
      case None => Err(NotAString)
  }

  /** The strings are read successfully exactly when every label and text is
      a string, and then pair by pair. */
  lemma {:induction false} StringSpansOk(raw: seq<RawSpan>)
    ensures StringSpans(raw).Ok? <==> forall i :: 0 <= i < |raw| ==> AsSpan(raw[i]).Some?
    ensures StringSpans(raw).Ok? ==>
              |StringSpans(raw).value| == |raw| &&
              forall i :: 0 <= i < |raw| ==> StringSpans(raw).value[i] == AsSpan(raw[i]).value
    decreases |raw|
  {
    if |raw| > 0 {
      var n := |raw| - 1;
      var init := raw[..n];
      assert forall i :: 0 <= i < n ==> init[i] == raw[i];
      StringSpansOk(init);
    }
  }

  /** `set(normalize_span(s) for s in pred_spans)`. */
  function NormalizePredictions(raw: seq<RawSpan>): (r: Result<set<Span>, EvalError>)
    ensures r.Err? ==> r.error == NotAString
    ensures r.Ok? <==> forall i :: 0 <= i < |raw| ==> AsSpan(raw[i]).Some?
    ensures r.Ok? ==> forall sp :: sp in r.value <==>
              exists i :: 0 <= i < |raw| && AsSpan(raw[i]).Some? && NormalizeSpan(AsSpan(raw[i]).value) == sp
  {
    StringSpansOk(raw);
    var spans :- StringSpans(raw);
    var distinct := set sp | sp in spans;
    NormalizedStrings(raw, spans, distinct);
    Ok(NormalizeSet(distinct))
  }

  /** The normalised set of the string pairs, member by member. */
  lemma NormalizedStrings(raw: seq<RawSpan>, spans: seq<Span>, distinct: set<Span>)
    requires |spans| == |raw| && distinct == set sp | sp in spans
    requires forall i :: 0 <= i < |raw| ==> AsSpan(raw[i]) == Some(spans[i])
    ensures forall sp :: sp in NormalizeSet(distinct) <==>
              exists i :: 0 <= i < |raw| && AsSpan(raw[i]).Some? && NormalizeSpan(AsSpan(raw[i]).value) == sp
  {
    forall sp | sp in NormalizeSet(distinct)
      ensures exists i :: 0 <= i < |raw| && AsSpan(raw[i]).Some? && NormalizeSpan(AsSpan(raw[i]).value) == sp
    {
      var x :| x in distinct && NormalizeSpan(x) == sp;
      var i :| 0 <= i < |spans| && spans[i] == x;
      assert AsSpan(raw[i]).value == x;
    }
    forall i | 0 <= i < |raw|
      ensures NormalizeSpan(AsSpan(raw[i]).value) in NormalizeSet(distinct)
    {
      assert spans[i] in distinct;
    }
  }

  /** `evaluate_predictions` without the file handling: read the ground
      truth, load the predictions, normalise both and score the two sets. */
  function EvaluatePredictions(gtLines: seq<string>, predData: Json): (r: Result<Scores, EvalError>)
    ensures ReadGroundTruthSpans(gtLines).Err? ==> r == Err(ReadGroundTruthSpans(gtLines).error)
    ensures r.Ok? ==> var m := r.value.metrics;
              0.0 <= m.precision <= 1.0 && 0.0 <= m.recall <= 1.0 && 0.0 <= m.f1 <= 1.0
    ensures r.Ok? ==> r.value.tp + r.value.fn == |NormalizeSet(ReadGroundTruthSpans(gtLines).value)|
    ensures ReadGroundTruthSpans(gtLines).Ok? && LoadPredictedSpans(predData).Err? ==>
              r == Err(LoadPredictedSpans(predData).error)
    ensures ReadGroundTruthSpans(gtLines).Ok? && LoadPredictedSpans(predData).Ok?
            && NormalizePredictions(LoadPredictedSpans(predData).value).Err? ==>
              r == Err(NormalizePredictions(LoadPredictedSpans(predData).value).error)
    ensures r.Ok? ==>
              && LoadPredictedSpans(predData).Ok?
              && NormalizePredictions(LoadPredictedSpans(predData).value).Ok?
              && var gold := NormalizeSet(ReadGroundTruthSpans(gtLines).value);
                 var pred := NormalizePredictions(LoadPredictedSpans(predData).value).value;
                 r.value.tp == |gold * pred| && r.value.fp == |pred - gold| && r.value.fn == |gold - pred|
    ensures r.Ok? ==> r.value.metrics == MetricsOf(r.value.tp, r.value.fp, r.value.fn)
  {
    var gt :- ReadGroundTruthSpans(gtLines);
    var raw :- LoadPredictedSpans(predData);
    var gtNorm := NormalizeSet(gt);
    var predNorm :- NormalizePredictions(raw);
    Ok(ScoreSets(gtNorm, predNorm))
  }

  /** A successful evaluation counts every distinct normalised prediction
      once, as a hit or a false positive. */
  lemma EvaluationCountsPredictions(gtLines: seq<string>, predData: Json, raw: seq<RawSpan>, predNorm: set<Span>)
    requires ReadGroundTruthSpans(gtLines).Ok?
    requires LoadPredictedSpans(predData) == Ok(raw)
    requires NormalizePredictions(raw) == Ok(predNorm)
    ensures EvaluatePredictions(gtLines, predData).Ok?
    ensures var s := EvaluatePredictions(gtLines, predData).value;
            s.tp + s.fp == |predNorm|
  {
  }

  // ---------------------------------------------------------------------------
  // A worked example

  /** A single word normalises to itself lower-cased. */
  lemma NormalizeOneWord(w: string)
    requires IsWord(w)
    ensures NormalizeText(w) == LowerStr(w)
  {
    LowerWord(w);
    WordsOfWord(LowerStr(w));
    NormalizeTextJoinsWords(w);
  }

  lemma NormalizeSetPair(x: Span, y: Span)
    ensures NormalizeSet({x, y}) == {NormalizeSpan(x), NormalizeSpan(y)}
  {
  }

  /** Gold spans ("ADR", "back pain") and ("ADR", "nausea") against predicted
      ("ADR", "Back   Pain") and ("ADR", "fever"): the differently spaced and
      cased back pain still matches, so there is one hit, one false positive
      and one false negative, and every metric is one half. */
  lemma WorkedExample()
    ensures var gold := NormalizeSet({Span("ADR", "back pain"), Span("ADR", "nausea")});
            var pred := NormalizeSet({Span("ADR", "Back   Pain"), Span("ADR", "fever")});
            ScoreSets(gold, pred) == Scores(1, 1, 1, Metrics(0.5, 0.5, 0.5))
  {
    ExampleSpans();
    NormalizeSetPair(Span("ADR", "back pain"), Span("ADR", "nausea"));
    NormalizeSetPair(Span("ADR", "Back   Pain"), Span("ADR", "fever"));
    OneOfEach(Span("adr", "back pain"), Span("adr", "nausea"), Span("adr", "fever"));
  }

  lemma ExampleSpans()
    ensures NormalizeSpan(Span("ADR", "back pain")) == Span("adr", "back pain")
    ensures NormalizeSpan(Span("ADR", "Back   Pain")) == Span("adr", "back pain")
    ensures NormalizeSpan(Span("ADR", "nausea")) == Span("adr", "nausea")
    ensures NormalizeSpan(Span("ADR", "fever")) == Span("adr", "fever")
  {
    ExampleLabel();
    ExampleBackPain();
    ExampleSpacedBackPain();
    ExampleWord("nausea");
    ExampleWord("fever");
  }

  lemma ExampleLabel()
    ensures NormalizeLabel("ADR") == "adr"
  {
    StripUnchanged("ADR");
  }

  lemma ExampleBackPain()
    ensures NormalizeText("back pain") == "back pain"
  {
    assert IsWord("back") && IsWord("pain") && AllSpace(" ");
    assert LowerStr("back") == "back" && LowerStr("pain") == "pain";
    NormalizeTwoWordsAt("back pain", "back", " ", "pain", "back pain");
  }

  lemma ExampleSpacedBackPain()
    ensures NormalizeText("Back   Pain") == "back pain"
  {
    assert IsWord("Back") && IsWord("Pain") && AllSpace("   ");
    assert LowerStr("Back") == "back" && LowerStr("Pain") == "pain";
    NormalizeTwoWordsAt("Back   Pain", "Back", "   ", "Pain", "back pain");
  }

  /** `NormalizeTwoWords` for a text and a result given whole. */
  lemma NormalizeTwoWordsAt(s: string, w1: string, gap: string, w2: string, r: string)
    requires IsWord(w1) && IsWord(w2) && |gap| > 0 && AllSpace(gap)
    requires s == w1 + gap + w2 && r == LowerStr(w1) + " " + LowerStr(w2)
    ensures NormalizeText(s) == r
  {
    NormalizeTwoWords(w1, gap, w2);
  }

  lemma ExampleWord(w: string)
    requires w == "nausea" || w == "fever"
    ensures NormalizeText(w) == w
  {
    assert IsWord(w) && NoUpper(w);
    LowerWordNormal(w);
  }

  /** A lower-case word is its own normal form. */
  lemma LowerWordNormal(w: string)
    requires IsWord(w) && NoUpper(w)
    ensures NormalizeText(w) == w
  {
    NormalizeOneWord(w);
    LowerStrIdempotent(w);
  }

  /** Two gold spans and two predicted spans sharing exactly one. */
  lemma OneOfEach(hit: Span, miss: Span, wrong: Span)
    requires hit != miss && hit != wrong && miss != wrong
    ensures ScoreSets({hit, miss}, {hit, wrong}) == Scores(1, 1, 1, Metrics(0.5, 0.5, 0.5))
  {
    var gold, pred := {hit, miss}, {hit, wrong};
    assert gold * pred == {hit} && pred - gold == {wrong} && gold - pred == {miss};
    assert MetricsOf(1, 1, 1) == Metrics(0.5, 0.5, 0.5) by {
      assert Ratio(1, 1) == 0.5;
      assert F1(0.5, 0.5) == 0.5;
    }
  }
}

=== FILE: text.dfy ===
/**
 * The string primitives the evaluators rely on, in the form Python gives them:
 * `str.strip()`, `str.lower()`, `str.split(sep)` with a one-character
 * separator, `str.split()` on whitespace, and `sep.join(parts)`.
 *
 * Whitespace and case are restricted to ASCII: `IsSpace` accepts exactly the
 * ASCII characters Python's `str.isspace` accepts, and `Lower` maps only
 * `A`..`Z`.
 */
module Text {

  /** ASCII whitespace as Python sees it: tab, LF, VT, FF, CR, the four
      information separators 0x1C..0x1F, and the space. */
  predicate IsSpace(c: char) {
    var n := c as int;
    9 <= n <= 13 || 28 <= n <= 32
  }

  predicate AllSpace(s: string) {
    forall k :: 0 <= k < |s| ==> IsSpace(s[k])
  }

  predicate IsUpper(c: char) {
    'A' <= c <= 'Z'
  }

  function Lower(c: char): (d: char)
    ensures !IsUpper(d)
    ensures IsSpace(d) <==> IsSpace(c)
    ensures !IsUpper(c) ==> d == c
  {
    if IsUpper(c) then (c as int + 32) as char else c
  }

  function LowerStr(s: string): (r: string)
    ensures |r| == |s|
    ensures forall k :: 0 <= k < |s| ==> r[k] == Lower(s[k])
  {
    seq(|s|, k requires 0 <= k < |s| => Lower(s[k]))
  }

  /** The number of whitespace characters `s` starts with. */
  function LeadingSpaces(s: string): (n: nat)
    ensures n <= |s|
    ensures forall k :: 0 <= k < n ==> IsSpace(s[k])
    ensures n == |s| || !IsSpace(s[n])
    decreases |s|
  {
    if |s| > 0 && IsSpace(s[0]) then 1 + LeadingSpaces(s[1..]) else 0
  }

  /** The number of whitespace characters `s` ends with. */
  function TrailingSpaces(s: string): (n: nat)
    ensures n <= |s|
    ensures forall k :: |s| - n <= k < |s| ==> IsSpace(s[k])
    ensures n == |s| || !IsSpace(s[|s| - 1 - n])
    decreases |s|
  {
    if |s| > 0 && IsSpace(s[|s| - 1]) then 1 + TrailingSpaces(s[..|s| - 1]) else 0
  }

  /** `s.strip()`: what lies between the leading and the trailing
      whitespace. */
  function Strip(s: string): (r: string)
    ensures r == [] || (!IsSpace(r[0]) && !IsSpace(r[|r| - 1]))
    ensures var i := LeadingSpaces(s);
            i + |r| <= |s| && r == s[i..i + |r|]
            && AllSpace(s[..i]) && AllSpace(s[i + |r|..])
  {
    var i := LeadingSpaces(s);
    var n := TrailingSpaces(s[i..]);
    StripSlice(s, i, n);
    s[i..|s| - n]
  }

  lemma StripSlice(s: string, i: nat, n: nat)
    requires i == LeadingSpaces(s) && n == TrailingSpaces(s[i..])
    ensures i + n <= |s|
    ensures var r := s[i..|s| - n];
            (r == [] || (!IsSpace(r[0]) && !IsSpace(r[|r| - 1])))
            && AllSpace(s[..i]) && AllSpace(s[|s| - n..])
  {
    var t := s[i..];
    var tail := s[|s| - n..];
    assert forall k :: 0 <= k < n ==> tail[k] == t[|t| - n + k];
    if i + n < |s| {
      assert s[|s| - 1 - n] == t[|t| - 1 - n];
    }
  }

  lemma StripAt(s: string, i: nat, n: nat)
    requires i == LeadingSpaces(s) && n == TrailingSpaces(s[i..])
    ensures i + n <= |s| && Strip(s) == s[i..|s| - n]
  {
  }

  /** Python's `sep.join(parts)`. */
  function Join(parts: seq<string>, sep: string): string
  {
    if |parts| == 0 then ""
    else if |parts| == 1 then parts[0]
    else parts[0] + sep + Join(parts[1..], sep)
  }

  /** Python's `s.split(sep)` for a one-character separator: every
      occurrence of `sep` cuts, and empty pieces are kept. */
  function SplitOn(s: string, sep: char): (parts: seq<string>)
    ensures |parts| == multiset(s)[sep] + 1
    ensures forall i :: 0 <= i < |parts| ==> sep !in parts[i]
    decreases |s|
  {
    if |s| == 0 then [""]
    else
      var rest := SplitOn(s[1..], sep);
      assert s == [s[0]] + s[1..];
      if s[0] == sep then [""] + rest
      else [[s[0]] + rest[0]] + rest[1..]
  }

  /** Joining the pieces back with the separator gives the original string. */
  lemma {:induction false} JoinSplitOn(s: string, sep: char)
    ensures Join(SplitOn(s, sep), [sep]) == s
    decreases |s|
  {
    if |s| > 0 {
      var rest := SplitOn(s[1..], sep);
      JoinSplitOn(s[1..], sep);
      if s[0] == sep {
        assert SplitOn(s, sep) == [""] + rest;
        JoinConsSep(rest, sep);
      } else {
        assert SplitOn(s, sep) == [[s[0]] + rest[0]] + rest[1..];
        JoinConsChar(s[0], rest, sep);
      }
      assert s == [s[0]] + s[1..];
    }
  }

  lemma JoinConsSep(rest: seq<string>, sep: char)
    requires |rest| > 0
    ensures Join([""] + rest, [sep]) == [sep] + Join(rest, [sep])
  {
    JoinCons("", rest, [sep]);
    assert "" + [sep] == [sep];
  }

  lemma JoinConsChar(c: char, rest: seq<string>, sep: char)
    requires |rest| > 0
    ensures Join([[c] + rest[0]] + rest[1..], [sep]) == [c] + Join(rest, [sep])
  {
    JoinPrefixFirst([c], rest[0], rest[1..], [sep]);
    assert [rest[0]] + rest[1..] == rest;
  }

  /** A join of more than one piece is the first piece, the separator and the
      join of the others. */
  lemma JoinCons(first: string, tail: seq<string>, sep: string)
    requires |tail| > 0
    ensures Join([first] + tail, sep) == first + sep + Join(tail, sep)
  {
    assert ([first] + tail)[1..] == tail;
  }

  /** A prefix in front of the first piece is a prefix of the join. */
  lemma JoinPrefixFirst(pre: string, first: string, tail: seq<string>, sep: string)
    ensures Join([pre + first] + tail, sep) == pre + Join([first] + tail, sep)
  {
    if |tail| > 0 {
      JoinCons(pre + first, tail, sep);
      JoinCons(first, tail, sep);
      var x := Join(tail, sep);
      assert (pre + first) + sep + x == pre + (first + sep + x);
    }
  }

  /** A non-empty run of non-space characters. */
  predicate IsWord(w: string) {
    |w| > 0 && forall k :: 0 <= k < |w| ==> !IsSpace(w[k])
  }

  /** The length of the run of non-space characters that starts `s`. */
  function WordLen(s: string): (n: nat)
    ensures n <= |s|
    ensures forall k :: 0 <= k < n ==> !IsSpace(s[k])
    ensures n == |s| || IsSpace(s[n])
    decreases |s|
  {
    if |s| == 0 || IsSpace(s[0]) then 0 else 1 + WordLen(s[1..])
  }

  /** Python's `s.split()`: the maximal runs of non-space characters. */
  function Words(s: string): (ws: seq<string>)
    ensures forall i :: 0 <= i < |ws| ==> IsWord(ws[i])
    ensures forall i, k :: 0 <= i < |ws| && 0 <= k < |ws[i]| ==> ws[i][k] in s
    decreases |s|
  {
    if |s| == 0 then []
    else if IsSpace(s[0]) then Words(s[1..])
    else
      var n := WordLen(s);
      var rest := Words(s[n..]);
      assert forall i, k :: 0 <= i < |rest| && 0 <= k < |rest[i]| ==> rest[i][k] in s by {
        forall i, k | 0 <= i < |rest| && 0 <= k < |rest[i]|
          ensures rest[i][k] in s
        {
          var j :| 0 <= j < |s[n..]| && s[n..][j] == rest[i][k];
          assert s[n + j] == rest[i][k];
        }
      }
      assert forall k :: 0 <= k < n ==> s[..n][k] == s[k];
      [s[..n]] + rest
  }

  /** A string whose whitespace consists only of single ' ' characters, each
      between two non-space characters: no leading or trailing whitespace and
      no two whitespace characters in a row. */
  predicate SingleSpaced(t: string) {
    forall k :: 0 <= k < |t| && IsSpace(t[k]) ==>
      t[k] == ' ' && 0 < k < |t| - 1 && !IsSpace(t[k - 1]) && !IsSpace(t[k + 1])
  }

  predicate NoUpper(s: string) {
    forall k :: 0 <= k < |s| ==> !IsUpper(s[k])
  }

  // ---------------------------------------------------------------------------
  // strip

  /** `s.strip()` is empty exactly when `s` is all whitespace. */
  lemma StripEmptyIffAllSpace(s: string)
    ensures Strip(s) == [] <==> AllSpace(s)
  {
    var i := LeadingSpaces(s);
    if Strip(s) == [] {
      assert s == s[..i] + s[i..];
    } else {
      assert !IsSpace(s[i]);
    }
  }

  /** A string with no whitespace at either end is its own strip. */
  lemma StripUnchanged(s: string)
    requires s == [] || (!IsSpace(s[0]) && !IsSpace(s[|s| - 1]))
    ensures Strip(s) == s
  {
    if s != [] {
      assert LeadingSpaces(s) == 0;
      assert TrailingSpaces(s[0..]) == 0 by {
        assert s[0..] == s;
      }
    }
  }

  /** `LeadingSpaces` is pinned down by its contract. */
  lemma LeadingSpacesUnique(s: string, m: nat)
    requires m <= |s|
    requires forall k :: 0 <= k < m ==> IsSpace(s[k])
    requires m == |s| || !IsSpace(s[m])
    ensures LeadingSpaces(s) == m
  {
  }

  /** `TrailingSpaces` is pinned down by its contract. */
  lemma TrailingSpacesUnique(s: string, m: nat)
    requires m <= |s|
    requires forall k :: |s| - m <= k < |s| ==> IsSpace(s[k])
    requires m == |s| || !IsSpace(s[|s| - 1 - m])
    ensures TrailingSpaces(s) == m
  {
  }

  /** Whitespace around text whose ends are not whitespace is exactly what
      `strip()` removes. */
  lemma StripPadded(a: string, m: string, b: string)
    requires AllSpace(a) && AllSpace(b)
    requires m == [] || (!IsSpace(m[0]) && !IsSpace(m[|m| - 1]))
    ensures Strip(a + m + b) == m
  {
    var s := a + m + b;
    if m == [] {
      assert s == a + b;
      StripEmptyIffAllSpace(a + b);
    } else {
      assert s[|a|] == m[0];
      LeadingSpacesUnique(s, |a|);
      var t := s[|a|..];
      assert t == m + b;
      assert t[|t| - 1 - |b|] == m[|m| - 1];
      TrailingSpacesUnique(t, |b|);
      assert s[|a|..|s| - |b|] == m;
    }
  }

  /** Lower-casing commutes with stripping, as case never changes whether a
      character is whitespace. */
  lemma LowerStrip(s: string)
    ensures LowerStr(Strip(s)) == Strip(LowerStr(s))
  {
    var l := LowerStr(s);
    var i := LeadingSpaces(s);
    var n := TrailingSpaces(s[i..]);
    LowerSpaceCounts(s);
    calc {
      LowerStr(Strip(s));
      { StripAt(s, i, n); }
      LowerStr(s[i..|s| - n]);
      { LowerStrSlice(s, i, |s| - n); }
      l[i..|l| - n];
      { StripAt(l, i, n); }
      Strip(l);
    }
  }

  /** Lower-casing keeps the whitespace `strip()` removes. */
  lemma LowerSpaceCounts(s: string)
    ensures var l, i := LowerStr(s), LeadingSpaces(s);
            LeadingSpaces(l) == i && TrailingSpaces(l[i..]) == TrailingSpaces(s[i..])
  {
    var i := LeadingSpaces(s);
    LowerLeadingSpaces(s);
    LowerStrSlice(s, i, |s|);
    LowerTrailingSpaces(s[i..]);
  }

  lemma LowerLeadingSpaces(s: string)
    ensures LeadingSpaces(LowerStr(s)) == LeadingSpaces(s)
  {
    LeadingSpacesUnique(LowerStr(s), LeadingSpaces(s));
  }

  lemma LowerTrailingSpaces(s: string)
    ensures TrailingSpaces(LowerStr(s)) == TrailingSpaces(s)
  {
    TrailingSpacesUnique(LowerStr(s), TrailingSpaces(s));
  }

  lemma LowerStrSlice(s: string, i: nat, j: nat)
    requires i <= j <= |s|
    ensures LowerStr(s)[i..j] == LowerStr(s[i..j])
  {
  }

  lemma LowerStrAppend(a: string, b: string)
    ensures LowerStr(a + b) == LowerStr(a) + LowerStr(b)
  {
    var l := LowerStr(a + b);
    assert forall k :: 0 <= k < |a| ==> l[k] == Lower(a[k]);
    assert forall k :: 0 <= k < |b| ==> l[|a| + k] == Lower(b[k]);
  }

  /** Lower-casing keeps a word a word. */
  lemma LowerWord(w: string)
    requires IsWord(w)
    ensures IsWord(LowerStr(w))
  {
  }

  lemma LowerStrIdempotent(s: string)
    requires NoUpper(s)
    ensures LowerStr(s) == s
  {
  }

  // ---------------------------------------------------------------------------
  // split on a separator character

  /** A string without the separator splits into itself alone. */
  lemma {:induction false} SplitOnNoSep(a: string, sep: char)
    requires sep !in a
    ensures SplitOn(a, sep) == [a]
    decreases |a|
  {
    if |a| > 0 {
      SplitOnNoSep(a[1..], sep);
      assert a == [a[0]] + a[1..];
    }
  }

  /** The first separator ends the first piece. */
  lemma {:induction false} SplitOnFirstSep(a: string, sep: char, b: string)
    requires sep !in a
    ensures SplitOn(a + [sep] + b, sep) == [a] + SplitOn(b, sep)
    decreases |a|
  {
    var s := a + [sep] + b;
    if |a| == 0 {
      assert s[1..] == b;
    } else {
      assert s[1..] == a[1..] + [sep] + b;
      SplitOnFirstSep(a[1..], sep, b);
      assert a == [a[0]] + a[1..];
    }
  }

  /** Pieces free of the separator are exactly what splitting their join
      gives back. */
  lemma {:induction false} SplitOnJoin(parts: seq<string>, sep: char)
    requires |parts| > 0
    requires forall i :: 0 <= i < |parts| ==> sep !in parts[i]
    ensures SplitOn(Join(parts, [sep]), sep) == parts
    decreases |parts|
  {
    if |parts| == 1 {
      SplitOnNoSep(parts[0], sep);
    } else {
      SplitOnJoin(parts[1..], sep);
      SplitOnFirstSep(parts[0], sep, Join(parts[1..], [sep]));
      assert parts == [parts[0]] + parts[1..];
    }
  }

  // ---------------------------------------------------------------------------
  // split on whitespace

  /** `WordLen` is pinned down by its contract. */
  lemma WordLenUnique(s: string, m: nat)
    requires m <= |s|
    requires forall k :: 0 <= k < m ==> !IsSpace(s[k])
    requires m == |s| || IsSpace(s[m])
    ensures WordLen(s) == m
  {
  }

  /** A string without whitespace (possibly empty) splits into no words or
      one. */
  lemma WordsOfWord(w: string)
    requires IsWord(w)
    ensures Words(w) == [w]
  {
    WordLenUnique(w, |w|);
    assert w[..|w|] == w;
    assert w[|w|..] == [];
  }

  /** A word followed by a space and more text splits off as the first word. */
  lemma WordsWordThenSpace(w: string, t: string)
    requires IsWord(w)
    ensures Words(w + " " + t) == [w] + Words(t)
  {
    var s := w + " " + t;
    WordLenUnique(s, |w|);
    assert s[..|w|] == w;
    assert s[|w|..] == " " + t;
    assert (" " + t)[1..] == t;
  }

  /** `s.split()` is empty exactly when `s` is all whitespace. */
  lemma {:induction false} WordsEmptyIffAllSpace(s: string)
    ensures Words(s) == [] <==> AllSpace(s)
    decreases |s|
  {
    if |s| > 0 && IsSpace(s[0]) {
      WordsEmptyIffAllSpace(s[1..]);
      assert forall k :: 1 <= k < |s| ==> s[k] == s[1..][k - 1];
    }
  }

  /** Joining words with single spaces and splitting again gives them back. */
  lemma {:induction false} WordsOfJoin(ws: seq<string>)
    requires forall i :: 0 <= i < |ws| ==> IsWord(ws[i])
    ensures Words(Join(ws, " ")) == ws
    decreases |ws|
  {
    if |ws| == 1 {
      WordsOfWord(ws[0]);
    } else if |ws| > 1 {
      WordsOfJoin(ws[1..]);
      WordsWordThenSpace(ws[0], Join(ws[1..], " "));
      assert ws == [ws[0]] + ws[1..];
    }
  }

  /** Leading whitespace is not a word. */
  lemma {:induction false} WordsSpacePrefix(gap: string, t: string)
    requires AllSpace(gap)
    ensures Words(gap + t) == Words(t)
    decreases |gap|
  {
    if |gap| > 0 {
      assert (gap + t)[1..] == gap[1..] + t;
      WordsSpacePrefix(gap[1..], t);
    } else {
      assert gap + t == t;
    }
  }

  /** A word followed by any run of whitespace splits off as the first
      word. */
  lemma WordsWordThenGap(w: string, gap: string, t: string)
    requires IsWord(w) && |gap| > 0 && AllSpace(gap)
    ensures Words(w + gap + t) == [w] + Words(t)
  {
    var s := w + gap + t;
    assert s[|w|] == gap[0];
    WordLenUnique(s, |w|);
    assert s[..|w|] == w;
    assert s[|w|..] == gap + t;
    WordsSpacePrefix(gap, t);
  }

  lemma {:induction false} WordsSnocSpace(s: string, c: char)
    requires IsSpace(c)
    ensures Words(s + [c]) == Words(s)
    decreases |s|
  {
    var t := s + [c];
    if |s| == 0 {
      assert t[1..] == [];
    } else if IsSpace(s[0]) {
      assert t[1..] == s[1..] + [c];
      WordsSnocSpace(s[1..], c);
    } else {
      var n := WordLen(s);
      WordLenUnique(t, n);
      assert t[..n] == s[..n];
      assert t[n..] == s[n..] + [c];
      WordsSnocSpace(s[n..], c);
    }
  }

  /** Trailing whitespace adds no word. */
  lemma {:induction false} WordsSpaceSuffix(t: string, gap: string)
    requires AllSpace(gap)
    ensures Words(t + gap) == Words(t)
    decreases |gap|
  {
    if |gap| > 0 {
      var g := gap[..|gap| - 1];
      assert t + gap == (t + g) + [gap[|gap| - 1]];
      WordsSnocSpace(t + g, gap[|gap| - 1]);
      WordsSpaceSuffix(t, g);
    } else {
      assert t + gap == t;
    }
  }

  /** Stripping before `split()` makes no difference. */
  lemma WordsStrip(s: string)
    ensures Words(Strip(s)) == Words(s)
  {
    var i := LeadingSpaces(s);
    var r := Strip(s);
    var tail := s[i + |r|..];
    assert s == s[..i] + (r + tail);
    WordsSpacePrefix(s[..i], r + tail);
    WordsSpaceSuffix(r, tail);
  }

  /** Joining words with single spaces yields single-spaced text. */
  lemma {:induction false} JoinWordsSingleSpaced(ws: seq<string>)
    requires forall i :: 0 <= i < |ws| ==> IsWord(ws[i])
    ensures SingleSpaced(Join(ws, " "))
    ensures |ws| > 0 ==> |ws[0]| > 0 && |Join(ws, " ")| > 0 && Join(ws, " ")[0] == ws[0][0]
    decreases |ws|
  {
    if |ws| > 1 {
      JoinWordsSingleSpaced(ws[1..]);
      var w := ws[0];
      var r := Join(ws[1..], " ");
      var t := Join(ws, " ");
      assert t == w + " " + r;
      forall k | 0 <= k < |t| && IsSpace(t[k])
        ensures t[k] == ' ' && 0 < k < |t| - 1 && !IsSpace(t[k - 1]) && !IsSpace(t[k + 1])
      {
        if k > |w| {
          assert t[k] == r[k - |w| - 1];
          assert t[k - 1] == r[k - |w| - 2];
          assert t[k + 1] == r[k - |w|];
        } else {
          assert k == |w|;
        }
      }
    }
  }

  /** Words of an upper-case-free string are upper-case free. */
  lemma WordsNoUpper(s: string)
    requires NoUpper(s)
    ensures forall i :: 0 <= i < |Words(s)| ==> NoUpper(Words(s)[i])
  {
    var ws := Words(s);
    forall i, k | 0 <= i < |ws| && 0 <= k < |ws[i]|
      ensures !IsUpper(ws[i][k])
    {
      assert ws[i][k] in s;
    }
  }

  lemma {:induction false} JoinNoUpper(ws: seq<string>, sep: string)
    requires NoUpper(sep)
    requires forall i :: 0 <= i < |ws| ==> NoUpper(ws[i])
    ensures NoUpper(Join(ws, sep))
    decreases |ws|
  {
    if |ws| > 1 {
      JoinNoUpper(ws[1..], sep);
    }
  }
}
